=== FILE: README.md ===
# Maternal-health dashboard: list logic in Dafny

This project models the pure list logic of a clinic dashboard for maternal
health. The dashboard is a set of React screens over a hosted document
database. What is modelled is the part of each screen that turns fetched
documents and user choices into what is displayed:

- **Patient profiles** (`PatientProfiles`). A seven-part filter:
  - search;
  - trimester;
  - visit-count operator;
  - risk-level set;
  - status set;
  - inclusive age range;
  - due within N days.

  It also covers the case-insensitive keyed sort (ascending or descending), the multi-select toggle, "clear all" and the active-filter badge count.
- **Health education** (`HealthEducation`):
  - the per-patient facts derived from an antenatal-care (ANC) record: visit count, current gestational weeks, trimester bucket and status;
  - which patients a tip is sent to;
  - the tip list filter and the summary statistics;
  - avatar initials.
- **Reports** (`Report`). Default-filling of fetched whistleblower reports, the case-insensitive substring search over a selectable field, and the anonymous and unique-reporter counters.
- **Notifications** (`Notifications`). The broadcast-form reducers (category toggle, template selection, reset after sending), the history filter and the status badge colours.
- **Charts** (`ChartsData`). Default-filling of chart documents, the newest-first ordering, the summary statistics, the category filter and the category selector's list.
- **Patients page** (`PatientsPage`). The name search and the add-patient form, which appends a record whose id is the next position.
- **Dashboard shell** (`Dashboard`). Which screen the main area shows for the active view and the selected patient, the view-change transition, and the loading and sign-in gate.

Some JavaScript library behaviour is shared across screens, so it lives in `Common`:

- `Array.prototype.filter`;
- `includes`;
- `toLowerCase` and `toUpperCase`;
- `trim` and `split`;
- the set-based deduplication;
- the toggle idiom;
- decimal `toString`.

The sort lives in `Sorting`.

Modelling choices:

- Dates are integer milliseconds.
- The current time is a parameter `now`.
- Anything fetched from the database is an input sequence.
- Router navigation is an output value.

## Model

| member | source | states |
|---|---|---|
| Common.Filter | app/patients/page.tsx:85 | the kept elements are a subsequence of the input; an element is kept iff it is in the input and passes; each passing element is kept as often as it occurs |
| Common.Toggle | components/patient-profiles.tsx:355-357 | toggling flips membership of the value; an absent value is appended at the end; a present one is removed with every other element left in order and with the same multiplicity |
| Common.ToggleTwiceRestores | components/patient-profiles.tsx:355-357 | toggling an absent value twice gives back the original list |
| Common.Dedup | components/charts-data.tsx:231 | `Array.from(new Set(s))`: no repeats, the same members as `s`, ordered by first occurrence in `s` |
| Common.ContainsIffOccurs | components/report.tsx:95 | `includes` holds iff the needle occurs at some position of the string |
| Common.Trim | components/health-education.tsx:206 | the trimmed string occurs inside the original with only whitespace cut on either side, neither starts nor ends with whitespace, and is empty iff the original is all whitespace |
| Common.Split | components/health-education.tsx:206 | splitting yields at least one part, no part holds the separator, and joining the parts with the separator gives the string back |
| Common.NatToStringRoundTrip | app/patients/page.tsx:91 | reading the decimal text of `n` back gives `n` |
| Common.NatToStringInjective | app/patients/page.tsx:91 | different numbers have different decimal texts |
| Sorting.SortBy | components/patient-profiles.tsx:310-330 | the sorted list is a permutation of the input, ordered by the key ascending or descending |
| PatientProfiles.CeilDiv | components/patient-profiles.tsx:294 | `Math.ceil(a / b)` is the least `q` with `a <= b*q` |
| PatientProfiles.DaysUntilPositive | components/patient-profiles.tsx:293-295 | the rounded-up day difference is positive iff the due date lies after now |
| PatientProfiles.DaysUntilAtMost | components/patient-profiles.tsx:293-295 | the rounded-up day difference is at most `n` iff the gap is at most `n` whole days of milliseconds |
| PatientProfiles.WeeksRemaining | components/patient-profiles.tsx:421-427 | weeks remaining are never negative, positive iff the due date is ahead, and then the least week count covering the gap |
| PatientProfiles.FilteredPatients | components/patient-profiles.tsx:248-333 | the list holds exactly the patients passing all seven filters, each as often as in the input, sorted by the chosen key, ascending for "asc" and descending otherwise |
| PatientProfiles.SortedByNameAscending | components/patient-profiles.tsx:314-326 | sorted by name ascending means alphabetical after lower-casing |
| PatientProfiles.SortedByAgeDescending | components/patient-profiles.tsx:317-328 | sorted by age descending means ages never increase |
| PatientProfiles.VisitCountRule | components/patient-profiles.tsx:260-277 | a threshold of 0 or less passes everyone; otherwise lt/eq/gte/gt compare the visit count, and any other operator passes everyone |
| PatientProfiles.NeutralSelections | components/patient-profiles.tsx:256-283 | trimester "" or "All" and empty risk and status lists restrict nothing |
| PatientProfiles.DueWithinWindow | components/patient-profiles.tsx:288-296 | the due-date filter passes every non-active patient and keeps an active one iff the due date is after now and at most `n` days away |
| PatientProfiles.ToggleFilter | components/patient-profiles.tsx:352-360 | the multi-select toggle flips the value in the chosen list field: an absent value is appended at the end, a present one is removed with the other entries kept in order and with the same multiplicity; every other filter field stays as it was |
| PatientProfiles.ToggleFilterTwice | components/patient-profiles.tsx:352-360 | selecting and then deselecting an unselected value restores the filter state |
| PatientProfiles.ActiveFilterCount | components/patient-profiles.tsx:375-385 | the badge count is at most 7 and is 0 iff every filter has its neutral value and the search is empty |
| PatientProfiles.ClearAllFilters | components/patient-profiles.tsx:362-373 | after clearing, the active-filter count is 0, the visit-count operator is back to "gte" and the age range to 18-45 |
| PatientProfiles.NoActiveFilters | components/patient-profiles.tsx:248-307 | with no active filter a patient is listed iff aged 18 to 45 |
| PatientProfiles.ClearedListKeepsDefaultAges | components/patient-profiles.tsx:362-373 | after clearing, a list of patients aged 18 to 45 is shown in full |
| HealthEducation.CountVisitsUpTo | components/health-education.tsx:102-108 | the loop counts exactly the visit numbers up to `k` whose document is present and has a key |
| HealthEducation.VisitCount | components/health-education.tsx:102-108 | the visit count is the number of recorded visits among 1..8, so at most 8 |
| HealthEducation.CurrentWeeks | components/health-education.tsx:113-122 | current weeks are the recorded age plus the whole weeks elapsed since the first contact, or the recorded age when there is no contact date |
| HealthEducation.TrimesterOf | components/health-education.tsx:124-129 | one of the three trimesters iff at most 40 weeks; "delivered" only for a delivered patient, "unknown" only for an undelivered one |
| HealthEducation.TrimesterBuckets | components/health-education.tsx:124-129 | each trimester bucket is exactly one week range: up to 12, 13-27, 28-40, and over 40 split by delivery |
| HealthEducation.DerivePatient | components/health-education.tsx:131-141 | a derived row carries the record's visit count (at most 8), current weeks and the trimester bucket of those weeks; status "Delivered" iff delivered and "Active" otherwise; the stored name, or "Unknown" when it is missing or empty; the stored email and phone |
| HealthEducation.FetchPatients | components/health-education.tsx:96-142 | one derived row per record, in snapshot order |
| HealthEducation.EligibleIff | components/health-education.tsx:255-261 | a delivery tip reaches exactly the delivered patients and any other stage exactly the undelivered ones; a given target list must contain the exact week or visit count |
| HealthEducation.EligiblePatients | components/health-education.tsx:255-261 | the recipients are the eligible patients, in list order, each as often as in the input |
| HealthEducation.TargetWeeksAreMembership | components/health-education.tsx:258 | the target list [1, 12] reaches weeks 1 and 12 and nothing in between |
| HealthEducation.EmptyTargetListReachesNobody | components/health-education.tsx:258-259 | a present but empty target list reaches no patient |
| HealthEducation.FilteredTips | components/health-education.tsx:268-272 | a tip is listed iff its stage matches (or the filter is "all") and its title contains the search, each as often as in the input; "all" with no search lists every tip |
| HealthEducation.ReduceSent | components/health-education.tsx:277 | the reduce adds every tip's send counter to the start value |
| HealthEducation.Stats | components/health-education.tsx:274-279 | the active-tip count is the length of the active tips filtered out of the list, never above the total; the total sent is the sum of the counters; the eligible patients are the undelivered ones, and with the delivered count they make up the patient count |
| HealthEducation.InitialsOfTrimmed | components/health-education.tsx:206-211 | for a trimmed name: one or two upper-cased characters, from the first and last space-separated words, or from the only word |
| HealthEducation.InitialsAsWritten | components/health-education.tsx:204-213 | as written, initials fail exactly on non-empty names made only of whitespace; the empty name gives "?"; any other name gives the upper-cased first letters of its first and last words |
| HealthEducation.InitialsOfBlankThrows | components/health-education.tsx:205-210 | the name " " passes the empty-name guard and fails |
| HealthEducation.InitialsOrMark | components/health-education.tsx:205-212 | for a trimmed name: one or two characters with no lower-case letter, and "?" for the empty name |
| HealthEducation.Initials | components/health-education.tsx:204-213 | corrected initials never fail, have one or two characters with no lower-case letter, are "?" for every blank name, and otherwise are the upper-cased first letters of the trimmed name's first and last words |
| HealthEducation.InitialsAgreeOnNonBlankNames | components/health-education.tsx:204-213 | on every name that is not blank, the corrected initials equal the ones as written |
| Report.OrDash | components/report.tsx:50-57 | a missing or empty string becomes "-", any other is kept |
| Report.FillReport | components/report.tsx:46-58 | each of the six string fields is the stored text, or "-" when it is missing or empty; the timestamp is kept; the anonymous flag is false only when stored as false |
| Report.CheckField | components/report.tsx:89-98 | the boolean flag never matches; a timestamp matches iff its locale text, lower-cased, contains the term, and a missing one never |
| Report.FetchReports | components/report.tsx:46-59 | one filled report per document, in snapshot order |
| Report.FilterReports | components/report.tsx:84-113 | a blank search returns the list itself; otherwise a subsequence holding exactly the reports that match the lower-cased term in the chosen scope, each as often as in the input |
| Report.SingleFieldSearch | components/report.tsx:109-111 | with one string field chosen, a report is kept iff that field, lower-cased, contains the lower-cased term |
| Report.PhoneNumberNotSearched | components/report.tsx:100-108 | in "all" mode, changing the phone number never changes whether a report matches |
| Report.PhoneOnlyMatchIsDropped | components/report.tsx:100-108 | a report matching only in its phone number is not found in "all" mode |
| Report.Counts | components/report.tsx:115-155 | the anonymous and unique-reporter counts are at most the filtered count, and there are no reporters iff there are no reports |
| Notifications.ToggleCategory | components/notifications.tsx:109-116 | the category toggle flips membership of the id, appends an absent id, removes a present one, and leaves every other form field alone |
| Notifications.FindTemplate | components/notifications.tsx:119 | `find` returns the first template with the id, and nothing iff no template has it |
| Notifications.SelectTemplate | components/notifications.tsx:118-127 | a known id sets the template field and a message belonging to that id, leaving the other fields; an unknown id changes nothing |
| Notifications.SelectListedTemplate | components/notifications.tsx:118-127 | with distinct ids, selecting a listed template's id copies exactly that template's message |
| Notifications.BuiltInTemplatesSelectable | components/notifications.tsx:49-68 | each of the three built-in templates is selected by its own id |
| Notifications.SendBroadcast | components/notifications.tsx:129-142 | sending closes the dialog and empties the form, with schedule type "now" |
| Notifications.SendForgetsForm | components/notifications.tsx:89-142 | after sending, the form equals its initial value whatever was typed before |
| Notifications.FilterNotifications | components/notifications.tsx:144-150 | a notification is listed iff its recipient or message contains the term, ignoring case, and the status filter is "all" or equals its status; order and multiplicity are kept |
| Notifications.UnfilteredHistory | components/notifications.tsx:144-150 | no search with status "all" lists every notification in order |
| Notifications.StatusFilterExact | components/notifications.tsx:148 | filtering by a status lists only notifications with that status |
| Notifications.StatusColor | components/notifications.tsx:152-165 | "failed", "sent" and "pending" each own their variant; any status outside the four known ones is outlined |
| Notifications.StatusColorIff | components/notifications.tsx:152-165 | sent, pending and failed each own one variant; every other status is outlined |
| ChartsData.FillChart | components/charts-data.tsx:113-127 | missing title, type and data become "Untitled Chart", "bar" and [], and a stored non-empty type is kept; missing creation and update times become now; a missing colour scheme becomes the default palette; the chart is active unless stored as inactive |
| ChartsData.FetchCharts | components/charts-data.tsx:129-134 | the fetched charts are a permutation of the filled documents, newest first |
| ChartsData.TypeCountsBounded | components/charts-data.tsx:84-89 | the four type counters add up to at most the total, and exactly the total when every type is one of the four |
| ChartsData.LatestAsWrittenIsNull | components/charts-data.tsx:90-95 | the `lastUpdated` reduce as written yields null for every chart list |
| ChartsData.LatestAsWrittenMissesOneChart | components/charts-data.tsx:90-95 | a single chart already yields no last-update time |
| ChartsData.LatestAsWritten | components/charts-data.tsx:90-95 | as written, from a set accumulator the reduce yields a time no earlier than the start value and every chart's; only the null start goes wrong (`LatestAsWrittenIsNull`) |
| ChartsData.Latest | components/charts-data.tsx:90-95 | the corrected reduce yields the latest update time among the charts, and null only for no charts |
| ChartsData.Stats | components/charts-data.tsx:80-103 | as written: the active count and each of the four type counts is the length of the matching charts filtered out of the list, bounded by the total; the last update is always empty |
| ChartsData.StatsCorrected | components/charts-data.tsx:80-103 | the same counts, with the last update set iff there are charts, and then the latest chart's time |
| ChartsData.FilterCharts | components/charts-data.tsx:226-229 | "all" keeps every chart; any other value keeps exactly the charts of that category, in order and as often as in the input |
| ChartsData.CategoryValues | components/charts-data.tsx:231 | a value is listed iff it is the set, non-empty category of some chart |
| ChartsData.CategoryValuesInChartOrder | components/charts-data.tsx:231 | the list is the charts' categories in chart order, each as often as it occurs, with missing and empty ones dropped |
| ChartsData.Categories | components/charts-data.tsx:231 | the selector list starts with "all", followed by each non-empty category once, in order of first appearance |
| ChartsData.CategoriesDistinctIff | components/charts-data.tsx:231 | the selector list is free of repeats iff no chart is filed under the category "all" |
| PatientsPage.FilteredByName | app/patients/page.tsx:85 | the shown patients are those whose name contains the search, ignoring case, in order and as often as in the input |
| PatientsPage.EmptySearchKeepsAll | app/patients/page.tsx:85 | an empty search shows every patient in order |
| PatientsPage.FromForm | app/patients/page.tsx:91 | the new record copies the form's text fields, converts age and weeks, and takes the decimal text of its position as id |
| PatientsPage.AddPatient | app/patients/page.tsx:87-95 | adding appends exactly one record and keeps the earlier ones; the new id reads back as the new length; the dialog closes and the form is blank |
| PatientsPage.SequentialIdsDistinct | app/patients/page.tsx:91 | ids "1".."n" are pairwise different |
| PatientsPage.NewIdFresh | app/patients/page.tsx:91 | over ids "1".."n", the id given to the next patient is not taken |
| PatientsPage.AddKeepsSequentialIds | app/patients/page.tsx:89-92 | adding a patient keeps the ids "1".."n+1" |
| PatientsPage.InitialIdsSequential | app/patients/page.tsx:24-64 | the three starting patients carry ids "1", "2", "3" |
| Dashboard.ViewScreen | app/page.tsx:59-80 | a view id outside the known nine shows the overview, and no view id shows a patient's detail |
| Dashboard.OverviewIff | app/page.tsx:59-80 | the overview is shown iff the view is "dashboard" or unknown |
| Dashboard.ViewScreenRoundTrip | app/page.tsx:59-80 | every known view id is recovered from the screen the switch shows for it |
| Dashboard.KnownViewsDistinctScreens | app/page.tsx:59-80 | different known view ids show different screens |
| Dashboard.RenderContent | app/page.tsx:54-81 | a selected patient's detail is shown iff a non-empty id is selected; otherwise the active view's screen |
| Dashboard.SelectionOverridesView | app/page.tsx:55-57 | with a patient selected, the active view does not matter |
| Dashboard.ViewChange | app/page.tsx:42-52 | "report" keeps the view and navigates to "/report"; any other id becomes the view; the selection is always cleared; the menu closes iff on mobile |
| Dashboard.ViewChangeShowsView | app/page.tsx:42-81 | after choosing a view other than "report", the main area shows that view's screen |
| Dashboard.ReportKeepsScreen | app/page.tsx:43-48 | after choosing "report", the main area shows the previous view's screen and no detail |
| Dashboard.ViewChangeIdempotent | app/page.tsx:42-52 | choosing the same view twice leaves the shell as choosing it once |
| Dashboard.RenderPage | app/page.tsx:83-131 | loading shows the spinner, then a missing user shows the login page, and only then is the layout rendered around the current content; the mobile layout, with its menu state, iff the viewport is mobile |
| Dashboard.InitialShowsOverview | app/page.tsx:27-29 | the shell starts on the overview, with no patient selected and the mobile menu closed |
| Dashboard.ContentNeedsSignIn | app/page.tsx:92-95 | no layout is rendered without a signed-in user |

## Left out

- Database reads, the auth subscription, sign-out and router navigation are not modelled. Fetched documents are input sequences and navigation is an output value. The screens' fetch loading and error flags are out too.
- JSX, class strings, dialogs' open state (except the broadcast dialog and the patients page's add dialog) and the Recharts chart construction are not modelled.
- `new Date()` is the parameter `now`.
  - Parsing date strings into times is not modelled: due dates and visit dates are already integers.
  - An invalid date (NaN) is not modelled.
- Locale formatting (`toLocaleString`) is the opaque parameter `localeText` in the report search.
- Case conversion and whitespace use ASCII letters and the JavaScript whitespace set. Unicode case folding is not modelled.
- `Number(...)` on the patients-page form is the parameter `toNumber: string -> int`. NaN and fractional results are not modelled.
- A fractional stored `gestationalAge` is not modelled: gestational ages and weeks are integers.
- Strings are sequences of Unicode code points, not UTF-16 code units. The sort therefore orders characters outside the Basic Multilingual Plane by code point, and the first character of a name taken for the initials is a whole code point, where the JavaScript takes half of a surrogate pair.
- `parseInt` in `handleCreateTip` is left out, as is the tip-creation form it belongs to. It only writes to the console.
- The statistics cards of the patient-profiles screen are left out. So are its floating-point percentages, `getRiskColor`, `getStatusColor` and the other display helpers.
- The per-category tab split of the health-tip list is left out, as is the stage badge colour helper `getStageColor`.
- The notification settings panel is left out.
- The patients page's detail view selection is left out.
- These parts of the application are not modelled:
  - the patient detail view;
  - the header and sidebar;
  - the auth hook;
  - the layout;
  - the report route.
- PatientProfiles.FilteredPatients: sorting is over the six keys the sort selector offers. Any other key is not modelled.
- PatientProfiles.FilteredPatients: stability of the sort is not stated as a contract.
- ChartsData.FetchCharts: stability of the sort is not stated as a contract, so charts with equal update times may come in any order rather than snapshot order.
- PatientProfiles.FilteredPatients: the sort's own comparison function is modelled as the same-type key order, rather than JavaScript's mixed-type `<`.
- ChartsData.FillChart: stored timestamps are treated as objects, which are always truthy. A stored `isActive` of null is not distinguished from a missing one.
- Report.FillReport: a stored `isAnonymous` of null is not distinguished from a missing one.
- Dashboard.RenderContent: the condition `if (selectedPatient)` is JavaScript truthiness, so a selected id of "" shows the view, not a detail.
- Report.Counts: states bounds on the counters rather than their exact values.

## Findings

| source | as written | input that shows it | evidently intended | confidence | as-written member | corrected member |
|---|---|---|---|---|---|---|
| components/health-education.tsx:205-210 | the `!fullName` guard lets a whitespace-only name through; it trims to "", splits into [""], and `""[0].toUpperCase()` throws a TypeError | `getInitials(" ")` | "?" for every blank name | not executed | HealthEducation.InitialsAsWritten | HealthEducation.Initials |
| components/charts-data.tsx:90-95 | the reduce starts from null and only replaces a non-null accumulator, so "last updated" is always null | any non-empty chart list, e.g. one chart | the latest update time among the charts | not executed | ChartsData.Stats | ChartsData.StatsCorrected |

=== FILE: charts_data.dfy ===
/**
 * The charts screen: default-filling and newest-first ordering of fetched
 * chart documents, the summary statistics, the category filter and the list
 * of categories offered by the selector. Timestamps are milliseconds; the
 * `now` parameter stands for `new Date()`.
 */
module ChartsData {
  import opened Common
  import opened Sorting

  /** One point of a chart's series. */
  datatype DataPoint = DataPoint(name: string, value: int)

  /** A chart document as stored: every field may be missing. */
  datatype RawChart = RawChart(
    id: string,
    title: Option<string>,
    chartType: Option<string>,
    data: Option<seq<DataPoint>>,
    description: Option<string>,
    createdAt: Option<int>,
    lastUpdated: Option<int>,
    isActive: Option<bool>,
    category: Option<string>,
    colorScheme: Option<seq<string>>
  )

  datatype Chart = Chart(
    id: string,
    title: string,
    chartType: string,
    data: seq<DataPoint>,
    description: Option<string>,
    createdAt: int,
    lastUpdated: int,
    isActive: bool,
    category: Option<string>,
    colorScheme: seq<string>
  )

  datatype ChartStats = ChartStats(
    totalCharts: nat,
    activeCharts: nat,
    bar: nat,
    line: nat,
    pie: nat,
    area: nat,
    lastUpdated: Option<int>
  )

  const DefaultTitle: string := "Untitled Chart"
  const DefaultType: string := "bar"
  const DefaultColors: seq<string> := ["#3b82f6", "#10b981", "#f59e0b", "#ef4444", "#8b5cf6"]

  /** The four chart kinds the screen can draw. */
  const ChartTypes: seq<string> := ["bar", "line", "pie", "area"]

  // ---------------------------------------------------------------------------
  // Fetching
  // ---------------------------------------------------------------------------

  /** One fetched document with its defaults filled in. */
  function FillChart(raw: RawChart, now: int): (c: Chart)
    ensures c.id == raw.id
    ensures c.title != "" && c.chartType != ""
    ensures raw.title.Some? && raw.title.value != "" ==> c.title == raw.title.value
    ensures raw.title.None? || raw.title.value == "" ==> c.title == DefaultTitle
    ensures raw.chartType.None? || raw.chartType.value == "" ==> c.chartType == DefaultType
    ensures raw.chartType.Some? && raw.chartType.value != "" ==> c.chartType == raw.chartType.value
    ensures c.createdAt == if raw.createdAt.Some? then raw.createdAt.value else now
    ensures c.colorScheme == if raw.colorScheme.Some? then raw.colorScheme.value else DefaultColors
    ensures raw.data.None? ==> c.data == []
    ensures raw.data.Some? ==> c.data == raw.data.value
    ensures c.isActive <==> raw.isActive != Some(false)
    ensures c.lastUpdated == if raw.lastUpdated.Some? then raw.lastUpdated.value else now
    ensures c.category == raw.category && c.description == raw.description
  {
    Chart(
      raw.id,
      if raw.title.Some? && raw.title.value != "" then raw.title.value else DefaultTitle,
      if raw.chartType.Some? && raw.chartType.value != "" then raw.chartType.value else DefaultType,
      raw.data.GetOr([]),
      raw.description,
      raw.createdAt.GetOr(now),
      raw.lastUpdated.GetOr(now),
      raw.isActive.GetOr(true),
      raw.category,
      raw.colorScheme.GetOr(DefaultColors))
  }

  function UpdatedKey(c: Chart): Key {
    Num(c.lastUpdated)
  }

  /**
   * `fetchChartsData`: every document with defaults, newest first (last
   * update times never increase along the list).
   */
  function FetchCharts(raws: seq<RawChart>, now: int): (r: seq<Chart>)
    ensures multiset(r) == multiset(Map(raws, (raw: RawChart) => FillChart(raw, now)))
    ensures |r| == |raws|
    ensures forall i, j :: 0 <= i < j < |r| ==> r[j].lastUpdated <= r[i].lastUpdated
  {
    var filled := Map(raws, (raw: RawChart) => FillChart(raw, now));
    var r := SortBy(filled, UpdatedKey, true);
    assert |r| == |multiset(r)| == |multiset(filled)| == |filled|;
    assert forall i, j :: 0 <= i < j < |r| ==> InOrder(UpdatedKey(r[i]), UpdatedKey(r[j]), true);
    r
  }

  // ---------------------------------------------------------------------------
  // Statistics
  // ---------------------------------------------------------------------------

  function TypeCount(charts: seq<Chart>, kind: string): nat {
    Count(charts, (c: Chart) => c.chartType == kind)
  }

  lemma TypeCountCons(charts: seq<Chart>, kind: string)
    requires |charts| > 0
    ensures TypeCount(charts, kind) == (if charts[0].chartType == kind then 1 else 0) + TypeCount(charts[1..], kind)
  {
    CountCons(charts, (c: Chart) => c.chartType == kind);
  }

  /**
   * The four per-type counters never add up to more than the total, and add
   * up to exactly the total when every chart is of one of the four types.
   */
  lemma {:induction false} TypeCountsBounded(charts: seq<Chart>)
    ensures TypeCount(charts, "bar") + TypeCount(charts, "line") + TypeCount(charts, "pie")
      + TypeCount(charts, "area") <= |charts|
    ensures (forall c :: c in charts ==> c.chartType in ChartTypes) ==>
      TypeCount(charts, "bar") + TypeCount(charts, "line") + TypeCount(charts, "pie")
      + TypeCount(charts, "area") == |charts|
  {
    if |charts| > 0 {
      TypeCountsBounded(charts[1..]);
      assert forall c :: c in charts[1..] ==> c in charts;
      TypeCountCons(charts, "bar");
      TypeCountCons(charts, "line");
      TypeCountCons(charts, "pie");
      TypeCountCons(charts, "area");
    }
  }

  /**
   * The `lastUpdated` reduce as written: it starts from null and replaces the
   * accumulator only when the accumulator is already set.
   */
  function LatestAsWritten(charts: seq<Chart>, latest: Option<int>): (r: Option<int>)
    ensures latest.Some? ==> r.Some? && latest.value <= r.value
    ensures latest.Some? ==> forall c :: c in charts ==> c.lastUpdated <= r.value
  {
    if |charts| == 0 then latest
    else
      var d := charts[0].lastUpdated;
      var r := LatestAsWritten(charts[1..], if latest.Some? && d > latest.value then Some(d) else latest);
      assert charts == [charts[0]] + charts[1..];
      r
  }

  /** As written, the reduce never leaves null, whatever the charts. */
  lemma {:induction false} LatestAsWrittenIsNull(charts: seq<Chart>)
    ensures LatestAsWritten(charts, None) == None
  {
    if |charts| > 0 {
      LatestAsWrittenIsNull(charts[1..]);
    }
  }

  /** The input that shows it: one chart, yet no last update. */
  lemma LatestAsWrittenMissesOneChart(c: Chart)
    ensures LatestAsWritten([c], None) == None
  {
  }

  /**
   * The reduce as intended: an unset accumulator takes the chart's time.
   * The result is the latest time among the charts and the start value.
   */
  function Latest(charts: seq<Chart>, latest: Option<int>): (r: Option<int>)
    ensures r.None? <==> |charts| == 0 && latest.None?
    ensures r.Some? ==> forall c :: c in charts ==> c.lastUpdated <= r.value
    ensures r.Some? && latest.Some? ==> latest.value <= r.value
    ensures r.Some? ==> r == latest || exists c :: c in charts && c.lastUpdated == r.value
  {
    if |charts| == 0 then latest
    else
      var d := charts[0].lastUpdated;
      var acc := if latest.None? || d > latest.value then Some(d) else latest;
      var r := Latest(charts[1..], acc);
      assert charts == [charts[0]] + charts[1..];
      r
  }

  /**
   * The summary cards as written: the counters are bounded by the total, and
   * the last-update card is always empty.
   */
  function Stats(charts: seq<Chart>): (s: ChartStats)
    ensures s.totalCharts == |charts|
    ensures s.activeCharts <= s.totalCharts
    ensures s.bar + s.line + s.pie + s.area <= s.totalCharts
    ensures (forall c :: c in charts ==> c.chartType in ChartTypes) ==>
      s.bar + s.line + s.pie + s.area == s.totalCharts
    ensures s.activeCharts == |Filter(charts, (c: Chart) => c.isActive)|
    ensures s.bar == |Filter(charts, (c: Chart) => c.chartType == "bar")|
    ensures s.line == |Filter(charts, (c: Chart) => c.chartType == "line")|
    ensures s.pie == |Filter(charts, (c: Chart) => c.chartType == "pie")|
    ensures s.area == |Filter(charts, (c: Chart) => c.chartType == "area")|
    ensures s.lastUpdated.None?
  {
    TypeCountsBounded(charts);
    LatestAsWrittenIsNull(charts);
    CountIsFilteredLength(charts, (c: Chart) => c.isActive);
    CountIsFilteredLength(charts, (c: Chart) => c.chartType == "bar");
    CountIsFilteredLength(charts, (c: Chart) => c.chartType == "line");
    CountIsFilteredLength(charts, (c: Chart) => c.chartType == "pie");
    CountIsFilteredLength(charts, (c: Chart) => c.chartType == "area");
    ChartStats(
      |charts|,
      Count(charts, (c: Chart) => c.isActive),
      TypeCount(charts, "bar"),
      TypeCount(charts, "line"),
      TypeCount(charts, "pie"),
      TypeCount(charts, "area"),
      if |charts| > 0 then LatestAsWritten(charts, None) else None)
  }

  /**
   * The summary cards with the corrected reduce: the same counters, and a
   * last update that is set iff there are charts, and is then the latest
   * chart's time.
   */
  function StatsCorrected(charts: seq<Chart>): (s: ChartStats)
    ensures s.(lastUpdated := None) == Stats(charts)
    ensures s.lastUpdated.None? <==> |charts| == 0
    ensures s.lastUpdated.Some? ==> forall c :: c in charts ==> c.lastUpdated <= s.lastUpdated.value
    ensures s.lastUpdated.Some? ==> exists c :: c in charts && c.lastUpdated == s.lastUpdated.value
  {
    Stats(charts).(lastUpdated := if |charts| > 0 then Latest(charts, None) else None)
  }

  // ---------------------------------------------------------------------------
  // Category selector
  // ---------------------------------------------------------------------------

  predicate InCategory(c: Chart, selected: string) {
    selected == "all" || c.category == Some(selected)
  }

  /** `filteredCharts`: "all" keeps every chart, any other value its exact category. */
  function FilterCharts(charts: seq<Chart>, selected: string): (r: seq<Chart>)
    ensures IsSubsequence(r, charts)
    ensures selected == "all" ==> r == charts
    ensures selected != "all" ==> forall c :: c in r <==> c in charts && c.category == Some(selected)
    ensures selected != "all" ==>
      forall c :: multiset(r)[c] == if c.category == Some(selected) then multiset(charts)[c] else 0
  {
    if selected == "all" then
      FilterKeepsAll(charts, (c: Chart) => InCategory(c, selected));
      Filter(charts, (c: Chart) => InCategory(c, selected))
    else
      Filter(charts, (c: Chart) => InCategory(c, selected))
  }

  /** The set, non-empty categories of the charts, in chart order (with repeats). */
  function CategoryValues(charts: seq<Chart>): (r: seq<string>)
    ensures forall x :: x in r <==> x != "" && exists c :: c in charts && c.category == Some(x)
  {
    if |charts| == 0 then []
    else
      var head := if charts[0].category.Some? && charts[0].category.value != "" then [charts[0].category.value] else [];
      var r := head + CategoryValues(charts[1..]);
      assert charts == [charts[0]] + charts[1..];
      r
  }

  /** A chart's category as text, "" when it has none. */
  function CategoryText(c: Chart): string {
    c.category.GetOr("")
  }

  /**
   * `charts.map(chart => chart.category).filter(Boolean)`: the category list
   * is the charts' categories in chart order, each kept as often as it
   * occurs, with the missing and empty ones dropped.
   */
  lemma {:induction false} CategoryValuesInChartOrder(charts: seq<Chart>)
    ensures CategoryValues(charts) == Filter(Map(charts, CategoryText), (x: string) => x != "")
  {
    if |charts| > 0 {
      CategoryValuesInChartOrder(charts[1..]);
      assert Map(charts, CategoryText)[1..] == Map(charts[1..], CategoryText);
    }
  }

  /**
   * `categories`: "all" followed by each non-empty category once, in order
   * of first appearance.
   */
  function Categories(charts: seq<Chart>): (r: seq<string>)
    ensures |r| >= 1 && r[0] == "all"
    ensures forall x :: x in r[1..] <==> x != "" && exists c :: c in charts && c.category == Some(x)
    ensures Distinct(r[1..])
    ensures forall x :: x in r[1..] <==> x in CategoryValues(charts)
    ensures forall i, j :: 0 <= i < j < |r| - 1 ==>
      IndexOf(CategoryValues(charts), r[1..][i]) < IndexOf(CategoryValues(charts), r[1..][j])
  {
    var d := Dedup(CategoryValues(charts));
    assert (["all"] + d)[1..] == d;
    ["all"] + d
  }

  /** "all" is listed twice exactly when some chart is filed under "all". */
  lemma CategoriesDistinctIff(charts: seq<Chart>)
    ensures Distinct(Categories(charts)) <==> !exists c :: c in charts && c.category == Some("all")
  {
    var r := Categories(charts);
    if exists c :: c in charts && c.category == Some("all") {
      assert "all" in r[1..];
      var k :| 0 <= k < |r[1..]| && r[1..][k] == "all";
      assert r[0] == r[k + 1];
    } else {
      assert "all" !in r[1..];
      forall i, j | 0 <= i < j < |r|
        ensures r[i] != r[j]
      {
        if i == 0 {
          assert r[j] == r[1..][j - 1];
        } else {
          assert r[i] == r[1..][i - 1] && r[j] == r[1..][j - 1];
        }
      }
    }
  }
}

=== FILE: common.dfy ===
/**
 * Sequence and string helpers shared by every screen of the dashboard: the
 * JavaScript array and string primitives the components are written with
 * (filter, includes, toLowerCase, trim, split, toString, new Set), each
 * defined once over immutable values.
 */
module Common {

  /** Milliseconds in a day and in a week, as the screens spell them out. */
  const MsPerDay: int := 1000 * 60 * 60 * 24
  const MsPerWeek: int := MsPerDay * 7

  /** A value that may be absent: JavaScript's `undefined`/`null`. */
  datatype Option<T> = None | Some(value: T) {
    function GetOr(default: T): T {
      match this
      case Some(v) => v
      case None => default
    }
  }

  // ---------------------------------------------------------------------------
  // Sequences
  // ---------------------------------------------------------------------------

  /** `sub` is an order-preserving sublist of `s`. */
  predicate IsSubsequence<T(==)>(sub: seq<T>, s: seq<T>)
    decreases |s|
  {
    if |sub| == 0 then true
    else if |s| == 0 then false
    else if sub[0] == s[0] then IsSubsequence(sub[1..], s[1..])
    else IsSubsequence(sub, s[1..])
  }

  lemma {:induction false} SubsequenceShorter<T>(sub: seq<T>, s: seq<T>)
    requires IsSubsequence(sub, s)
    ensures |sub| <= |s|
    decreases |s|
  {
    if |sub| > 0 {
      if sub[0] == s[0] {
        SubsequenceShorter(sub[1..], s[1..]);
      } else {
        SubsequenceShorter(sub, s[1..]);
      }
    }
  }

  /** Array.prototype.filter: the elements of `s` satisfying `p`, in order. */
  function Filter<T(!new)>(s: seq<T>, p: T -> bool): (r: seq<T>)
    ensures IsSubsequence(r, s)
    ensures forall x :: x in r <==> x in s && p(x)
    ensures forall x :: multiset(r)[x] == if p(x) then multiset(s)[x] else 0
    ensures |r| <= |s|
    decreases |s|
  {
    if |s| == 0 then []
    else
      var rest := Filter(s[1..], p);
      assert s == [s[0]] + s[1..];
      SubsequenceShorter(rest, s[1..]);
      if p(s[0]) then [s[0]] + rest else rest
  }

  /** When every element passes, filtering changes nothing. */
  lemma {:induction false} FilterKeepsAll<T(!new)>(s: seq<T>, p: T -> bool)
    requires forall x :: x in s ==> p(x)
    ensures Filter(s, p) == s
    decreases |s|
  {
    if |s| > 0 {
      FilterKeepsAll(s[1..], p);
    }
  }

  /** When no element passes, filtering leaves nothing. */
  lemma {:induction false} FilterDropsAll<T(!new)>(s: seq<T>, p: T -> bool)
    requires forall x :: x in s ==> !p(x)
    ensures Filter(s, p) == []
    decreases |s|
  {
    if |s| > 0 {
      FilterDropsAll(s[1..], p);
    }
  }

  /** Number of elements satisfying `p`: `s.filter(p).length`. */
  function Count<T(!new)>(s: seq<T>, p: T -> bool): (n: nat)
    ensures n <= |s|
  {
    if |s| == 0 then 0 else (if p(s[0]) then 1 else 0) + Count(s[1..], p)
  }

  /** Counting is the length of the filtered list. */
  lemma {:induction false} CountIsFilteredLength<T(!new)>(s: seq<T>, p: T -> bool)
    ensures Count(s, p) == |Filter(s, p)|
  {
    if |s| > 0 {
      CountIsFilteredLength(s[1..], p);
    }
  }

  /** Counting one element at a time. */
  lemma CountCons<T(!new)>(s: seq<T>, p: T -> bool)
    requires |s| > 0
    ensures Count(s, p) == (if p(s[0]) then 1 else 0) + Count(s[1..], p)
  {
  }

  /** A predicate and its negation split a sequence in two. */
  lemma {:induction false} CountSplit<T(!new)>(s: seq<T>, p: T -> bool, q: T -> bool)
    requires forall x :: q(x) <==> !p(x)
    ensures Count(s, p) + Count(s, q) == |s|
    decreases |s|
  {
    if |s| > 0 {
      CountSplit(s[1..], p, q);
    }
  }

  /** Applies `f` to every element: Array.prototype.map. */
  function Map<T, U>(s: seq<T>, f: T -> U): (r: seq<U>)
    ensures |r| == |s|
    ensures forall i :: 0 <= i < |s| ==> r[i] == f(s[i])
  {
    seq(|s|, i requires 0 <= i < |s| => f(s[i]))
  }

  /** All elements different from each other. */
  predicate Distinct<T(==)>(s: seq<T>) {
    forall i, j :: 0 <= i < j < |s| ==> s[i] != s[j]
  }

  /** Position of the first occurrence of `x` in `s`. */
  function IndexOf<T(==)>(s: seq<T>, x: T): (i: nat)
    requires x in s
    ensures i < |s| && s[i] == x
    ensures forall j :: 0 <= j < i ==> s[j] != x
  {
    if s[0] == x then 0 else 1 + IndexOf(s[1..], x)
  }

  lemma IndexOfInPrefix<T>(s: seq<T>, n: nat, x: T)
    requires n <= |s| && x in s[..n]
    ensures IndexOf(s[..n], x) == IndexOf(s, x)
  {
    assert forall j :: 0 <= j < n ==> s[..n][j] == s[j];
  }

  /**
   * `Array.from(new Set(s))`: the distinct elements of `s` in order of first
   * occurrence.
   */
  function Dedup<T(==,!new)>(s: seq<T>): (r: seq<T>)
    ensures Distinct(r)
    ensures forall x :: x in r <==> x in s
    ensures forall i, j :: 0 <= i < j < |r| ==> IndexOf(s, r[i]) < IndexOf(s, r[j])
    ensures |r| <= |s|
    decreases |s|
  {
    if |s| == 0 then []
    else
      var n := |s| - 1;
      var init := s[..n];
      var d := Dedup(init);
      assert s == init + [s[n]];
      forall y | y in init
        ensures IndexOf(init, y) == IndexOf(s, y)
      {
        IndexOfInPrefix(s, n, y);
      }
      if s[n] in d then d
      else
        assert forall y :: y in d ==> IndexOf(s, y) < n;
        assert IndexOf(s, s[n]) == n;
        d + [s[n]]
  }

  // ---------------------------------------------------------------------------
  // Multi-select toggles
  // ---------------------------------------------------------------------------

  /**
   * `list.includes(v) ? list.filter(x => x !== v) : [...list, v]`: remove every
   * copy of a selected value, or append an unselected one.
   */
  function Toggle<T(==,!new)>(list: seq<T>, v: T): (r: seq<T>)
    ensures v in r <==> v !in list
    ensures forall x :: x != v ==> multiset(r)[x] == multiset(list)[x]
    ensures v in list ==> IsSubsequence(r, list)
    ensures v !in list ==> r == list + [v]
  {
    if v in list then Filter(list, x => x != v) else list + [v]
  }

  /** Toggling an unselected value twice restores the original list. */
  lemma {:induction false} ToggleTwiceRestores<T(!new)>(list: seq<T>, v: T)
    requires v !in list
    ensures Toggle(Toggle(list, v), v) == list
  {
    var once := list + [v];
    assert Toggle(list, v) == once;
    FilterAppendDropped(list, v);
  }

  lemma {:induction false} FilterAppendDropped<T(!new)>(list: seq<T>, v: T)
    requires v !in list
    ensures Filter(list + [v], x => x != v) == list
    decreases |list|
  {
    if |list| == 0 {
      assert Filter([v], x => x != v) == [] + Filter([v][1..], x => x != v);
    } else {
      assert (list + [v])[1..] == list[1..] + [v];
      FilterAppendDropped(list[1..], v);
    }
  }

  // ---------------------------------------------------------------------------
  // Strings
  // ---------------------------------------------------------------------------

  /** ASCII `toLowerCase` of one character. */
  function LowerChar(c: char): char {
    if 'A' <= c <= 'Z' then (c as int + 32) as char else c
  }

  /** ASCII `toUpperCase` of one character. */
  function UpperChar(c: char): char {
    if 'a' <= c <= 'z' then (c as int - 32) as char else c
  }

  /** No ASCII capital letter occurs in `s`. */
  predicate HasNoUpper(s: string) {
    forall i :: 0 <= i < |s| ==> !('A' <= s[i] <= 'Z')
  }

  /** No ASCII small letter occurs in `s`. */
  predicate HasNoLower(s: string) {
    forall i :: 0 <= i < |s| ==> !('a' <= s[i] <= 'z')
  }

  /** `s.toLowerCase()`, restricted to ASCII letters. */
  function Lower(s: string): (r: string)
    ensures |r| == |s|
    ensures forall i :: 0 <= i < |s| ==> r[i] == LowerChar(s[i])
    ensures HasNoUpper(r)
  {
    Map(s, LowerChar)
  }

  /** `s.toUpperCase()`, restricted to ASCII letters. */
  function Upper(s: string): (r: string)
    ensures |r| == |s|
    ensures forall i :: 0 <= i < |s| ==> r[i] == UpperChar(s[i])
    ensures HasNoLower(r)
  {
    Map(s, UpperChar)
  }

  /** `hay.includes(needle)`, defined by recursion over the haystack. */
  predicate Contains(hay: string, needle: string)
    decreases |hay|
  {
    needle <= hay || (|hay| > 0 && Contains(hay[1..], needle))
  }

  /** `needle` occurs in `hay` starting at position `i`. */
  predicate OccursAt(hay: string, needle: string, i: int) {
    0 <= i && i + |needle| <= |hay| && hay[i..i + |needle|] == needle
  }

  /** `includes` holds exactly when the needle occurs at some position. */
  lemma {:induction false} ContainsIffOccurs(hay: string, needle: string)
    ensures Contains(hay, needle) <==> exists i :: OccursAt(hay, needle, i)
    decreases |hay|
  {
    if needle <= hay {
      assert OccursAt(hay, needle, 0);
    } else if |hay| > 0 {
      ContainsIffOccurs(hay[1..], needle);
      if Contains(hay[1..], needle) {
        var i :| OccursAt(hay[1..], needle, i);
        assert OccursAt(hay, needle, i + 1);
      }
      if exists i :: OccursAt(hay, needle, i) {
        var i :| OccursAt(hay, needle, i);
        assert i > 0;
        assert OccursAt(hay[1..], needle, i - 1);
      }
    }
  }

  /** Every string includes the empty string. */
  lemma ContainsEmpty(hay: string)
    ensures Contains(hay, "")
  {
  }

  /** The characters `String.prototype.trim` removes. */
  predicate IsSpace(c: char) {
    c == ' ' || c == '\t' || c == '\n' || c == '\r' || c == '\U{0B}' || c == '\U{0C}'
    || c == '\U{A0}' || c == '\U{1680}' || ('\U{2000}' <= c <= '\U{200A}')
    || c == '\U{2028}' || c == '\U{2029}' || c == '\U{202F}' || c == '\U{205F}'
    || c == '\U{3000}' || c == '\U{FEFF}'
  }

  /** Only whitespace (or nothing at all). */
  predicate IsBlank(s: string) {
    forall i :: 0 <= i < |s| ==> IsSpace(s[i])
  }

  function TrimStart(s: string): (r: string)
    ensures |r| <= |s| && r == s[|s| - |r|..]
    ensures |r| > 0 ==> !IsSpace(r[0])
    ensures IsBlank(s[..|s| - |r|])
    decreases |s|
  {
    if |s| > 0 && IsSpace(s[0]) then
      var r := TrimStart(s[1..]);
      assert s[..|s| - |r|] == [s[0]] + s[1..][..|s[1..]| - |r|];
      r
    else s
  }

  function TrimEnd(s: string): (r: string)
    ensures |r| <= |s| && r == s[..|r|]
    ensures |r| > 0 ==> !IsSpace(r[|r| - 1])
    ensures IsBlank(s[|r|..])
    decreases |s|
  {
    if |s| > 0 && IsSpace(s[|s| - 1]) then
      var r := TrimEnd(s[..|s| - 1]);
      assert s[|r|..] == s[..|s| - 1][|r|..] + [s[|s| - 1]];
      r
    else s
  }

  /** `r` is the slice of `s` at `k`, with only whitespace cut on either side. */
  predicate TrimmedAt(s: string, r: string, k: int) {
    OccursAt(s, r, k) && IsBlank(s[..k]) && IsBlank(s[k + |r|..])
  }

  /** Trimming the start and then the end cuts only whitespace. */
  lemma TrimCutsBlanks(s: string)
    ensures TrimmedAt(s, TrimEnd(TrimStart(s)), |s| - |TrimStart(s)|)
  {
    var a := TrimStart(s);
    var r := TrimEnd(a);
    var k := |s| - |a|;
    assert s[k..k + |r|] == r;
    assert s[k + |r|..] == a[|r|..];
  }

  /**
   * `s.trim()`: the longest slice of `s` that neither starts nor ends with
   * whitespace; empty exactly when `s` is blank.
   */
  function Trim(s: string): (r: string)
    ensures exists k :: TrimmedAt(s, r, k)
    ensures |r| > 0 ==> !IsSpace(r[0]) && !IsSpace(r[|r| - 1])
    ensures r == "" <==> IsBlank(s)
  {
    var a := TrimStart(s);
    var r := TrimEnd(a);
    TrimCutsBlanks(s);
    TrimmedEmptyIffBlank(s, a, r);
    r
  }

  lemma TrimmedEmptyIffBlank(s: string, a: string, r: string)
    requires a == TrimStart(s) && r == TrimEnd(a)
    ensures r == "" <==> IsBlank(s)
  {
    var k := |s| - |a|;
    if r == "" {
      assert a[|r|..] == a;
      assert s[..k] == s;
    } else {
      assert r[0] == s[k];
    }
  }

  /** `parts.join(sep)` for a non-empty list of parts. */
  function Join(parts: seq<string>, sep: char): string
    requires |parts| >= 1
    decreases |parts|
  {
    if |parts| == 1 then parts[0] else parts[0] + [sep] + Join(parts[1..], sep)
  }

  /**
   * `s.split(sep)` for a one-character separator: never empty, no part holds
   * the separator, and joining the parts back gives `s`.
   */
  function Split(s: string, sep: char): (parts: seq<string>)
    ensures |parts| >= 1
    ensures forall i :: 0 <= i < |parts| ==> sep !in parts[i]
    ensures Join(parts, sep) == s
    decreases |s|
  {
    if |s| == 0 then [""]
    else
      var rest := Split(s[1..], sep);
      if s[0] == sep then
        assert s == [sep] + s[1..];
        [""] + rest
      else
        var first := [s[0]] + rest[0];
        var parts := [first] + rest[1..];
        assert parts[1..] == rest[1..];
        assert s == [s[0]] + s[1..];
        parts
  }

  /** A string not starting with the separator has a non-empty first part. */
  lemma {:induction false} SplitFirstNonEmpty(s: string, sep: char)
    requires |s| > 0 && s[0] != sep
    ensures |Split(s, sep)[0]| > 0
  {
  }

  /** A string not ending with the separator has a non-empty last part. */
  lemma {:induction false} SplitLastNonEmpty(s: string, sep: char)
    requires |s| > 0 && s[|s| - 1] != sep
    ensures var parts := Split(s, sep); |parts[|parts| - 1]| > 0
    decreases |s|
  {
    var parts := Split(s, sep);
    if |s| > 1 {
      SplitLastNonEmpty(s[1..], sep);
      var rest := Split(s[1..], sep);
      if s[0] != sep && |rest| == 1 {
        assert parts[|parts| - 1] == [s[0]] + rest[0];
      }
    }
  }

  // ---------------------------------------------------------------------------
  // Decimal numerals
  // ---------------------------------------------------------------------------

  predicate IsDigit(c: char) {
    '0' <= c <= '9'
  }

  function DigitChar(d: nat): (c: char)
    requires d < 10
    ensures IsDigit(c) && c as int - '0' as int == d
  {
    ('0' as int + d) as char
  }

  /** `n.toString()` for a natural number: its shortest decimal numeral. */
  function NatToString(n: nat): (s: string)
    ensures |s| >= 1
    ensures forall i :: 0 <= i < |s| ==> IsDigit(s[i])
    ensures |s| > 1 ==> s[0] != '0'
  {
    if n < 10 then [DigitChar(n)] else NatToString(n / 10) + [DigitChar(n % 10)]
  }

  /** The value of a decimal numeral. */
  function DecimalValue(s: string): nat
    requires forall i :: 0 <= i < |s| ==> IsDigit(s[i])
  {
    if |s| == 0 then 0
    else
      assert IsDigit(s[|s| - 1]);
      10 * DecimalValue(s[..|s| - 1]) + (s[|s| - 1] as int - '0' as int)
  }

  /** Reading back a printed number gives the number. */
  lemma {:induction false} NatToStringRoundTrip(n: nat)
    ensures DecimalValue(NatToString(n)) == n
  {
    if n >= 10 {
      NatToStringRoundTrip(n / 10);
      var s := NatToString(n);
      assert s[..|s| - 1] == NatToString(n / 10);
    }
  }

  /** Different numbers print differently. */
  lemma NatToStringInjective(a: nat, b: nat)
    ensures NatToString(a) == NatToString(b) ==> a == b
  {
    NatToStringRoundTrip(a);
    NatToStringRoundTrip(b);
  }
}

=== FILE: dashboard.dfy ===
/**
 * The dashboard shell: which screen the main area shows for the current view
 * and selected patient, the view-change transition driven by the navigation,
 * and the loading / sign-in gate in front of the layout. Router navigation
 * is an output value; whether the user is signed in, whether authentication
 * is still loading and whether the viewport is mobile are inputs.
 */
module Dashboard {
  import opened Common

  /** What the main area renders. */
  datatype Screen =
    | PatientDetail(patientId: string)
    | Overview
    | PatientProfiles
    | TrimesterDashboards
    | Calendar
    | Requests
    | Analytics
    | NotificationsScreen
    | MedicalRecords
    | ReportScreen

  /** The shell's state: the current view, the selected patient and the mobile menu. */
  datatype Shell = Shell(activeView: string, selectedPatient: Option<string>, mobileMenuOpen: bool)

  /** The whole page. */
  datatype Page =
    | Spinner
    | LoginPage
    | MobileLayout(menuOpen: bool, content: Screen)
    | DesktopLayout(content: Screen)

  const InitialShell: Shell := Shell("dashboard", None, false)

  /** The view ids the `switch` knows. */
  const ViewIds: seq<string> := [
    "dashboard", "patients", "trimester-views", "calendar", "requests",
    "analytics", "notifications", "records", "report"
  ]

  /** The `switch` on the view id; anything unknown shows the overview. */
  function ViewScreen(view: string): (s: Screen)
    ensures !s.PatientDetail?
    ensures view !in ViewIds ==> s == Overview
  {
    match view
    case "dashboard" => Overview
    case "patients" => PatientProfiles
    case "trimester-views" => TrimesterDashboards
    case "calendar" => Calendar
    case "requests" => Requests
    case "analytics" => Analytics
    case "notifications" => NotificationsScreen
    case "records" => MedicalRecords
    case "report" => ReportScreen
    case _ => Overview
  }

  /** The overview is shown for "dashboard" and for every id the switch does not know. */
  lemma OverviewIff(view: string)
    ensures ViewScreen(view) == Overview <==>
      view !in ["patients", "trimester-views", "calendar", "requests", "analytics",
                "notifications", "records", "report"]
  {
  }

  /** The view id the navigation highlights for a screen; a detail belongs to no view. */
  function ViewIdOf(s: Screen): string {
    match s
    case PatientDetail(_) => ""
    case Overview => "dashboard"
    case PatientProfiles => "patients"
    case TrimesterDashboards => "trimester-views"
    case Calendar => "calendar"
    case Requests => "requests"
    case Analytics => "analytics"
    case NotificationsScreen => "notifications"
    case MedicalRecords => "records"
    case ReportScreen => "report"
  }

  /** Every known view id is recovered from the screen it shows. */
  lemma ViewScreenRoundTrip(view: string)
    requires view in ViewIds
    ensures ViewIdOf(ViewScreen(view)) == view
  {
  }

  /** Each known view id has a screen of its own: no two ids share one. */
  lemma KnownViewsDistinctScreens(a: string, b: string)
    requires a in ViewIds && b in ViewIds && a != b
    ensures ViewScreen(a) != ViewScreen(b)
  {
    ViewScreenRoundTrip(a);
    ViewScreenRoundTrip(b);
  }

  /** A selected patient is shown when the id is truthy, i.e. set and non-empty. */
  predicate HasSelection(selected: Option<string>) {
    selected.Some? && selected.value != ""
  }

  /**
   * `renderContent`: a selected patient's detail takes precedence over the
   * view; otherwise the view's screen.
   */
  function RenderContent(st: Shell): (s: Screen)
    ensures HasSelection(st.selectedPatient) ==> s == PatientDetail(st.selectedPatient.value)
    ensures !HasSelection(st.selectedPatient) ==> s == ViewScreen(st.activeView)
    ensures s.PatientDetail? <==> HasSelection(st.selectedPatient)
  {
    if HasSelection(st.selectedPatient) then PatientDetail(st.selectedPatient.value)
    else ViewScreen(st.activeView)
  }

  /** The detail screen wins whatever the active view. */
  lemma SelectionOverridesView(st: Shell, view: string)
    requires HasSelection(st.selectedPatient)
    ensures RenderContent(st.(activeView := view)) == RenderContent(st)
  {
  }

  /**
   * `handleViewChange`: "report" navigates to the report route and keeps the
   * view, any other id becomes the view; the selection is always cleared,
   * and on mobile the menu closes. The second component is the route pushed.
   */
  function ViewChange(st: Shell, view: string, isMobile: bool): (r: (Shell, Option<string>))
    ensures r.0.selectedPatient.None?
    ensures view == "report" ==> r.0.activeView == st.activeView && r.1 == Some("/report")
    ensures view != "report" ==> r.0.activeView == view && r.1.None?
    ensures isMobile ==> !r.0.mobileMenuOpen
    ensures !isMobile ==> r.0.mobileMenuOpen == st.mobileMenuOpen
  {
    var activeView := if view == "report" then st.activeView else view;
    var route := if view == "report" then Some("/report") else None;
    var menuOpen := if isMobile then false else st.mobileMenuOpen;
    (Shell(activeView, None, menuOpen), route)
  }

  /** After choosing a view other than "report", the main area shows that view's screen. */
  lemma ViewChangeShowsView(st: Shell, view: string, isMobile: bool)
    requires view != "report"
    ensures RenderContent(ViewChange(st, view, isMobile).0) == ViewScreen(view)
  {
  }

  /** Choosing "report" leaves the main area on the previous view's screen, without the detail. */
  lemma ReportKeepsScreen(st: Shell, isMobile: bool)
    ensures RenderContent(ViewChange(st, "report", isMobile).0) == ViewScreen(st.activeView)
  {
  }

  /** Choosing the same view twice is the same as choosing it once. */
  lemma ViewChangeIdempotent(st: Shell, view: string, isMobile: bool)
    ensures ViewChange(ViewChange(st, view, isMobile).0, view, isMobile).0 == ViewChange(st, view, isMobile).0
  {
  }

  /** The page: spinner while loading, then the login page, then the layout. */
  function RenderPage(loading: bool, signedIn: bool, isMobile: bool, st: Shell): (p: Page)
    ensures loading ==> p == Spinner
    ensures !loading && !signedIn ==> p == LoginPage
    ensures (p.MobileLayout? || p.DesktopLayout?) <==> !loading && signedIn
    ensures p.MobileLayout? <==> !loading && signedIn && isMobile
    ensures p.MobileLayout? ==> p.menuOpen == st.mobileMenuOpen
    ensures (p.MobileLayout? || p.DesktopLayout?) ==> p.content == RenderContent(st)
  {
    if loading then Spinner
    else if !signedIn then LoginPage
    else if isMobile then MobileLayout(st.mobileMenuOpen, RenderContent(st))
    else DesktopLayout(RenderContent(st))
  }

  /** On first render, with nothing selected yet, the main area shows the overview. */
  lemma InitialShowsOverview()
    ensures RenderContent(InitialShell) == Overview
    ensures !InitialShell.mobileMenuOpen
  {
  }

  /** No screen of the dashboard is reachable without a signed-in user. */
  lemma ContentNeedsSignIn(loading: bool, isMobile: bool, st: Shell)
    ensures !RenderPage(loading, false, isMobile, st).MobileLayout?
    ensures !RenderPage(loading, false, isMobile, st).DesktopLayout?
  {
  }
}

=== FILE: health_education.dfy ===
/**
 * The health-education screen: per-patient facts derived from an antenatal
 * care (ANC) record, the rule deciding which patients a tip is sent to, the
 * tip list filter, the summary statistics and the avatar initials.
 */
module HealthEducation {
  import opened Common

  /** Scheduled ANC visits `visit1`..`visit8`. */
  const MaxVisits: nat := 8

  /** A visit sub-document, reduced to its set of keys (`Object.keys`). */
  datatype VisitDoc = VisitDoc(keys: set<string>)

  /** The parts of an ANC record the screen reads. */
  datatype AncRecord = AncRecord(
    id: string,
    visits: map<int, VisitDoc>,              // visit number -> `visit<n>` document
    visitDelivery: Option<VisitDoc>,
    clientName: Option<string>,
    email: Option<string>,
    phoneNumber: Option<string>,
    gestationalAge: Option<int>,             // weeks, as recorded at the first visit
    dateOfAncContactSeconds: Option<int>     // first-visit date, seconds since the epoch
  )

  datatype Trimester = First | Second | Third | Delivered | Unknown

  datatype Patient = Patient(
    id: string,
    name: string,
    weeks: int,
    trimester: Trimester,
    visitCount: nat,
    status: string,
    hasDelivered: bool,
    email: Option<string>,
    phone: Option<string>
  )

  datatype Stage = FirstTrimester | SecondTrimester | ThirdTrimester | Delivery

  datatype Category = Health | Nutrition

  datatype HealthTip = HealthTip(
    id: string,
    title: string,
    content: string,
    category: Category,
    targetStage: Stage,
    targetWeeks: Option<seq<int>>,
    targetVisits: Option<seq<int>>,
    sentCount: int,
    isActive: bool
  )

  datatype TipStats = TipStats(totalTips: nat, activeTips: nat, totalSent: int, eligiblePatients: nat)

  /** The value of a stage in the stage selector. */
  function StageName(s: Stage): string {
    match s
    case FirstTrimester => "first-trimester"
    case SecondTrimester => "second-trimester"
    case ThirdTrimester => "third-trimester"
    case Delivery => "delivery"
  }

  // ---------------------------------------------------------------------------
  // Derivation from an ANC record
  // ---------------------------------------------------------------------------

  /** Visit `n` is present and has at least one key. */
  predicate IsRecorded(rec: AncRecord, n: int) {
    n in rec.visits && |rec.visits[n].keys| > 0
  }

  /** The recorded visits among the numbers 1..k. */
  ghost function RecordedAmong(rec: AncRecord, k: nat): set<int> {
    set n | 1 <= n <= k && IsRecorded(rec, n)
  }

  /** Counts the recorded visits among 1..k, one number at a time. */
  function CountVisitsUpTo(rec: AncRecord, k: nat): (c: nat)
    ensures c == |RecordedAmong(rec, k)|
    ensures c <= k
  {
    if k == 0 then
      assert RecordedAmong(rec, 0) == {};
      0
    else
      var c := CountVisitsUpTo(rec, k - 1);
      if IsRecorded(rec, k) then
        assert RecordedAmong(rec, k) == RecordedAmong(rec, k - 1) + {k};
        c + 1
      else
        assert RecordedAmong(rec, k) == RecordedAmong(rec, k - 1);
        c
  }

  /** The number of scheduled visits on record: between 0 and 8. */
  function VisitCount(rec: AncRecord): (c: nat)
    ensures c == |RecordedAmong(rec, MaxVisits)|
    ensures c <= MaxVisits
  {
    CountVisitsUpTo(rec, MaxVisits)
  }

  /** Delivered once the delivery visit document has any key. */
  predicate HasDelivered(rec: AncRecord) {
    rec.visitDelivery.Some? && |rec.visitDelivery.value.keys| > 0
  }

  /** `gestationalAge || 0`. */
  function RecordedWeeks(rec: AncRecord): int {
    match rec.gestationalAge
    case Some(g) => g
    case None => 0
  }

  /**
   * Gestational age today: the recorded age plus the whole weeks elapsed since
   * the first contact, or the recorded age when no contact date is known.
   */
  function CurrentWeeks(rec: AncRecord, now: int): (w: int)
    ensures rec.dateOfAncContactSeconds.None? ==> w == RecordedWeeks(rec)
    ensures rec.dateOfAncContactSeconds.Some? ==>
      var elapsed := now - rec.dateOfAncContactSeconds.value * 1000;
      var extra := w - RecordedWeeks(rec);
      MsPerWeek * extra <= elapsed < MsPerWeek * (extra + 1)
  {
    match rec.dateOfAncContactSeconds
    case None => RecordedWeeks(rec)
    case Some(sec) => RecordedWeeks(rec) + (now - sec * 1000) / MsPerWeek
  }

  /** The trimester bucket of a week count. */
  function TrimesterOf(weeks: int, delivered: bool): (t: Trimester)
    ensures (t == First || t == Second || t == Third) <==> weeks <= 40
    ensures t == Delivered ==> delivered
    ensures t == Unknown ==> !delivered
  {
    if weeks <= 12 then First
    else if weeks <= 27 then Second
    else if weeks <= 40 then Third
    else if delivered then Delivered
    else Unknown
  }

  /** Each bucket is exactly one range of weeks. */
  lemma TrimesterBuckets(weeks: int, delivered: bool)
    ensures TrimesterOf(weeks, delivered) == First <==> weeks <= 12
    ensures TrimesterOf(weeks, delivered) == Second <==> 13 <= weeks <= 27
    ensures TrimesterOf(weeks, delivered) == Third <==> 28 <= weeks <= 40
    ensures TrimesterOf(weeks, delivered) == Delivered <==> weeks > 40 && delivered
    ensures TrimesterOf(weeks, delivered) == Unknown <==> weeks > 40 && !delivered
  {
  }

  /** One row of the patient list built from one ANC record. */
  function DerivePatient(rec: AncRecord, now: int): (p: Patient)
    ensures p.id == rec.id
    ensures p.visitCount <= MaxVisits
    ensures p.status == "Delivered" <==> p.hasDelivered
    ensures p.status == "Active" <==> !p.hasDelivered
    ensures p.hasDelivered <==> HasDelivered(rec)
    ensures p.trimester == Delivered ==> p.hasDelivered && p.weeks > 40
    ensures p.visitCount == VisitCount(rec)
    ensures p.weeks == CurrentWeeks(rec, now)
    ensures p.trimester == TrimesterOf(p.weeks, p.hasDelivered)
    ensures p.name != ""
    ensures rec.clientName.Some? && rec.clientName.value != "" ==> p.name == rec.clientName.value
    ensures rec.clientName.None? || rec.clientName.value == "" ==> p.name == "Unknown"
    ensures p.email == rec.email && p.phone == rec.phoneNumber
  {
    var delivered := HasDelivered(rec);
    var weeks := CurrentWeeks(rec, now);
    Patient(
      rec.id,
      if rec.clientName.Some? && rec.clientName.value != "" then rec.clientName.value else "Unknown",
      weeks,
      TrimesterOf(weeks, delivered),
      VisitCount(rec),
      if delivered then "Delivered" else "Active",
      delivered,
      rec.email,
      rec.phoneNumber)
  }

  /** `fetchPatients`: one derived row per record, in snapshot order. */
  function FetchPatients(recs: seq<AncRecord>, now: int): (ps: seq<Patient>)
    ensures |ps| == |recs|
    ensures forall i :: 0 <= i < |recs| ==> ps[i] == DerivePatient(recs[i], now)
  {
    Map(recs, (rec: AncRecord) => DerivePatient(rec, now))
  }

  // ---------------------------------------------------------------------------
  // Tips
  // ---------------------------------------------------------------------------

  /** Whether a tip goes to a patient (`handleSendTip`). */
  predicate Eligible(tip: HealthTip, p: Patient) {
    if tip.targetStage == Delivery && !p.hasDelivered then false
    else if tip.targetStage != Delivery && p.hasDelivered then false
    else if tip.targetWeeks.Some? && p.weeks !in tip.targetWeeks.value then false
    else if tip.targetVisits.Some? && p.visitCount !in tip.targetVisits.value then false
    else true
  }

  /**
   * Delivery tips reach exactly the delivered patients and other tips exactly
   * the undelivered ones; a target list, when given, must contain the
   * patient's exact value.
   */
  lemma EligibleIff(tip: HealthTip, p: Patient)
    ensures Eligible(tip, p) <==>
      && (tip.targetStage == Delivery <==> p.hasDelivered)
      && (tip.targetWeeks.Some? ==> p.weeks in tip.targetWeeks.value)
      && (tip.targetVisits.Some? ==> p.visitCount in tip.targetVisits.value)
  {
  }

  /** The patients a tip is sent to, in list order. */
  function EligiblePatients(tip: HealthTip, patients: seq<Patient>): (r: seq<Patient>)
    ensures IsSubsequence(r, patients)
    ensures forall p :: p in r <==> p in patients && Eligible(tip, p)
    ensures forall p :: multiset(r)[p] == if Eligible(tip, p) then multiset(patients)[p] else 0
  {
    Filter(patients, p => Eligible(tip, p))
  }

  /**
   * Target lists mean membership, not ranges: the stored list
   * [1, 12] reaches week 1 and week 12 but not week 6.
   */
  lemma TargetWeeksAreMembership(tip: HealthTip, p: Patient)
    requires tip.targetWeeks == Some([1, 12]) && tip.targetVisits.None?
    requires tip.targetStage == FirstTrimester && !p.hasDelivered
    ensures Eligible(tip, p) <==> p.weeks == 1 || p.weeks == 12
  {
  }

  /** An empty target list (present but empty) reaches no one. */
  lemma EmptyTargetListReachesNobody(tip: HealthTip, patients: seq<Patient>)
    requires tip.targetWeeks == Some([]) || tip.targetVisits == Some([])
    ensures EligiblePatients(tip, patients) == []
  {
    FilterDropsAll(patients, p => Eligible(tip, p));
  }

  predicate TipShown(tip: HealthTip, filterStage: string, term: string) {
    && (filterStage == "all" || StageName(tip.targetStage) == filterStage)
    && (term == "" || Contains(Lower(tip.title), Lower(term)))
  }

  /** `filteredTips`: tips of the chosen stage whose title contains the search. */
  function FilteredTips(tips: seq<HealthTip>, filterStage: string, term: string): (r: seq<HealthTip>)
    ensures IsSubsequence(r, tips)
    ensures forall t :: t in r <==> t in tips && TipShown(t, filterStage, term)
    ensures forall t :: multiset(r)[t] == if TipShown(t, filterStage, term) then multiset(tips)[t] else 0
    ensures filterStage == "all" && term == "" ==> r == tips
  {
    if filterStage == "all" && term == "" then
      FilterKeepsAll(tips, t => TipShown(t, filterStage, term));
      Filter(tips, t => TipShown(t, filterStage, term))
    else
      Filter(tips, t => TipShown(t, filterStage, term))
  }

  /** Sum of the send counters. */
  function SumSent(tips: seq<HealthTip>): int {
    if |tips| == 0 then 0 else tips[0].sentCount + SumSent(tips[1..])
  }

  /**
   * `tips.reduce((sum, tip) => sum + tip.sentCount, acc)`: the left-to-right
   * reduction adds every send counter to the start value.
   */
  function ReduceSent(tips: seq<HealthTip>, acc: int): (r: int)
    ensures r == acc + SumSent(tips)
  {
    if |tips| == 0 then acc else ReduceSent(tips[1..], acc + tips[0].sentCount)
  }

  /** The four summary cards. */
  function Stats(tips: seq<HealthTip>, patients: seq<Patient>): (s: TipStats)
    ensures s.totalTips == |tips|
    ensures s.activeTips <= s.totalTips
    ensures s.totalSent == SumSent(tips)
    ensures s.eligiblePatients <= |patients|
    ensures s.eligiblePatients + Count(patients, (p: Patient) => p.hasDelivered) == |patients|
    ensures s.activeTips == |Filter(tips, (t: HealthTip) => t.isActive)|
    ensures s.eligiblePatients == |Filter(patients, (p: Patient) => !p.hasDelivered)|
  {
    CountIsFilteredLength(tips, (t: HealthTip) => t.isActive);
    CountIsFilteredLength(patients, (p: Patient) => !p.hasDelivered);
    CountSplit(patients, (p: Patient) => p.hasDelivered, (p: Patient) => !p.hasDelivered);
    TipStats(
      |tips|,
      Count(tips, (t: HealthTip) => t.isActive),
      ReduceSent(tips, 0),
      Count(patients, (p: Patient) => !p.hasDelivered))
  }

  // ---------------------------------------------------------------------------
  // Initials
  // ---------------------------------------------------------------------------

  datatype Failure = TypeError

  datatype Result = Ok(value: string) | Err(error: Failure)

  /**
   * Initials of a trimmed, non-empty name: the upper-cased first letters of
   * its first and last space-separated words, or of its only word.
   */
  function InitialsOfTrimmed(t: string): (r: string)
    requires t != "" && !IsSpace(t[0]) && !IsSpace(t[|t| - 1])
    ensures 1 <= |r| <= 2
    ensures HasNoLower(r)
    ensures var parts := Split(t, ' '); |parts[0]| > 0 && |parts[|parts| - 1]| > 0
    ensures var parts := Split(t, ' ');
      if |parts| >= 2 then r == Upper([parts[0][0], parts[|parts| - 1][0]])
      else r == Upper([t[0]])
  {
    var parts := Split(t, ' ');
    if |parts| >= 2 then
      SplitFirstNonEmpty(t, ' ');
      SplitLastNonEmpty(t, ' ');
      Upper([parts[0][0], parts[|parts| - 1][0]])
    else
      Upper([t[0]])
  }

  /**
   * `getInitials` as written. A name made only of blanks is non-empty, so it
   * passes the `!fullName` guard; it trims to "", splits into one empty part,
   * and taking the first letter of that part throws a TypeError.
   */
  function InitialsAsWritten(fullName: string): (r: Result)
    ensures r.Err? <==> fullName != "" && IsBlank(fullName)
    ensures fullName == "" ==> r == Ok("?")
    ensures !IsBlank(fullName) ==> r == Ok(InitialsOfTrimmed(Trim(fullName)))
  {
    if fullName == "" then Ok("?")
    else
      var t := Trim(fullName);
      var parts := Split(t, ' ');
      if |parts| == 1 && parts[0] == "" then Err(TypeError)
      else
        assert t != "";
        Ok(InitialsOfTrimmed(t))
  }

  /** The input that shows the difference: a single space. */
  lemma InitialsOfBlankThrows()
    ensures InitialsAsWritten(" ") == Err(TypeError)
  {
    assert IsBlank(" ");
  }

  /** Initials of an already trimmed name, with "?" for the empty one. */
  function InitialsOrMark(t: string): (r: string)
    requires t == "" || (!IsSpace(t[0]) && !IsSpace(t[|t| - 1]))
    ensures 1 <= |r| <= 2
    ensures t == "" ==> r == "?"
    ensures HasNoLower(r)
  {
    if t == "" then "?" else InitialsOfTrimmed(t)
  }

  /**
   * The avatar initials with blank names sent to "?" as evidently intended:
   * never fails, has one or two characters, none of them a lower-case letter,
   * and is "?" for every blank name.
   */
  function Initials(fullName: string): (r: string)
    ensures 1 <= |r| <= 2
    ensures IsBlank(fullName) ==> r == "?"
    ensures !IsBlank(fullName) ==> r == InitialsOfTrimmed(Trim(fullName))
    ensures HasNoLower(r)
  {
    InitialsOrMark(Trim(fullName))
  }

  /** On every name that is not blank, the correction changes nothing. */
  lemma InitialsAgreeOnNonBlankNames(fullName: string)
    requires !IsBlank(fullName)
    ensures InitialsAsWritten(fullName) == Ok(Initials(fullName))
  {
    var t := Trim(fullName);
    var parts := Split(t, ' ');
    assert t != "";
    assert |parts| == 1 ==> parts[0] == t;
    assert fullName != "";
  }
}

=== FILE: notifications.dfy ===
/**
 * The notifications screen: the broadcast form and its reducers (category
 * toggle, template selection, reset after sending), the history filter and
 * the status badge colours.
 */
module Notifications {
  import opened Common

  datatype BroadcastForm = BroadcastForm(
    title: string,
    message: string,
    categories: seq<string>,
    scheduleType: string,
    scheduleDate: string,
    scheduleTime: string,
    template: string
  )

  /** The broadcast dialog: whether it is open, and the form it holds. */
  datatype BroadcastDialog = BroadcastDialog(open: bool, form: BroadcastForm)

  datatype Template = Template(id: string, name: string, category: string, message: string)

  datatype Notification = Notification(
    id: string,
    kind: string,
    recipient: string,
    message: string,
    status: string,
    sentAt: Option<string>,
    scheduledFor: string
  )

  /** Badge variants. */
  datatype Variant = Default | Outline | Secondary | Destructive

  /** The empty form: no text, no categories, send now. */
  const InitialForm: BroadcastForm := BroadcastForm("", "", [], "now", "", "", "")

  /** The three built-in message templates. */
  const BroadcastTemplates: seq<Template> := [
    Template("1", "Appointment Reminder", "appointment",
      "Reminder: You have an appointment on {date} at {time}. Please arrive 15 minutes early."),
    Template("2", "Medication Reminder", "health",
      "Don't forget to take your prenatal vitamins and prescribed medications daily."),
    Template("3", "Health Tips", "education",
      "Remember to stay hydrated, eat nutritious meals, and get adequate rest during your pregnancy.")
  ]

  /** `handleCategoryToggle`: selects or deselects one patient category. */
  function ToggleCategory(f: BroadcastForm, categoryId: string): (r: BroadcastForm)
    ensures categoryId in r.categories <==> categoryId !in f.categories
    ensures categoryId !in f.categories ==> r.categories == f.categories + [categoryId]
    ensures categoryId in f.categories ==> IsSubsequence(r.categories, f.categories)
    ensures forall c :: c != categoryId ==> multiset(r.categories)[c] == multiset(f.categories)[c]
    ensures r.(categories := f.categories) == f
  {
    f.(categories := Toggle(f.categories, categoryId))
  }

  /** Position `i` holds the first template with the given id. */
  predicate IsFirstWithId(templates: seq<Template>, id: string, i: int) {
    0 <= i < |templates| && templates[i].id == id && forall j :: 0 <= j < i ==> templates[j].id != id
  }

  /** `Array.prototype.find` on template ids: the first template with that id. */
  function FindTemplate(templates: seq<Template>, id: string): (r: Option<Template>)
    ensures r.None? <==> forall t :: t in templates ==> t.id != id
    ensures r.Some? ==> r.value in templates && r.value.id == id
    ensures r.Some? ==> exists i :: IsFirstWithId(templates, id, i) && templates[i] == r.value
    decreases |templates|
  {
    if |templates| == 0 then None
    else if templates[0].id == id then Some(templates[0])
    else
      var r := FindTemplate(templates[1..], id);
      if r.Some? then
        var i :| IsFirstWithId(templates[1..], id, i) && templates[1..][i] == r.value;
        assert IsFirstWithId(templates, id, i + 1);
        r
      else r
  }

  /**
   * `handleTemplateSelect`: a known template fills in the message and the
   * template id and leaves everything else; an unknown id changes nothing.
   */
  function SelectTemplate(f: BroadcastForm, templates: seq<Template>, templateId: string): (r: BroadcastForm)
    ensures (forall t :: t in templates ==> t.id != templateId) ==> r == f
    ensures (exists t :: t in templates && t.id == templateId) ==>
      && r.template == templateId
      && (exists t :: t in templates && t.id == templateId && r.message == t.message)
      && r.(message := f.message, template := f.template) == f
  {
    match FindTemplate(templates, templateId)
    case Some(t) => f.(message := t.message, template := templateId)
    case None => f
  }

  /** With distinct ids, selecting a listed template's id picks that template's text. */
  lemma SelectListedTemplate(f: BroadcastForm, templates: seq<Template>, i: int)
    requires forall a, b :: 0 <= a < b < |templates| ==> templates[a].id != templates[b].id
    requires 0 <= i < |templates|
    ensures SelectTemplate(f, templates, templates[i].id)
      == f.(message := templates[i].message, template := templates[i].id)
  {
    var r := FindTemplate(templates, templates[i].id);
    var k :| IsFirstWithId(templates, templates[i].id, k) && templates[k] == r.value;
    assert k == i;
  }

  /** The built-in templates have distinct ids, so each is selectable. */
  lemma BuiltInTemplatesSelectable(f: BroadcastForm, i: int)
    requires 0 <= i < |BroadcastTemplates|
    ensures SelectTemplate(f, BroadcastTemplates, BroadcastTemplates[i].id).message
      == BroadcastTemplates[i].message
  {
    SelectListedTemplate(f, BroadcastTemplates, i);
  }

  /** `handleSendBroadcast`: closes the dialog and resets the form. */
  function SendBroadcast(d: BroadcastDialog): (r: BroadcastDialog)
    ensures !r.open
    ensures r.form.title == "" && r.form.message == "" && r.form.categories == []
    ensures r.form.scheduleType == "now"
    ensures r.form.scheduleDate == "" && r.form.scheduleTime == "" && r.form.template == ""
  {
    BroadcastDialog(false, InitialForm)
  }

  /** After a send the dialog is as on first render, whatever was typed. */
  lemma SendForgetsForm(d1: BroadcastDialog, d2: BroadcastDialog)
    ensures SendBroadcast(d1) == SendBroadcast(d2)
    ensures SendBroadcast(d1).form == InitialForm
  {
  }

  predicate NotificationShown(n: Notification, term: string, filterStatus: string) {
    && (Contains(Lower(n.recipient), Lower(term)) || Contains(Lower(n.message), Lower(term)))
    && (filterStatus == "all" || n.status == filterStatus)
  }

  /** `filteredNotifications`: search on recipient and message, and status filter. */
  function FilterNotifications(ns: seq<Notification>, term: string, filterStatus: string): (r: seq<Notification>)
    ensures IsSubsequence(r, ns)
    ensures forall n :: n in r <==> n in ns && NotificationShown(n, term, filterStatus)
    ensures forall n :: multiset(r)[n] == if NotificationShown(n, term, filterStatus) then multiset(ns)[n] else 0
  {
    Filter(ns, n => NotificationShown(n, term, filterStatus))
  }

  /** No search and status "all" lists every notification in the original order. */
  lemma UnfilteredHistory(ns: seq<Notification>)
    ensures FilterNotifications(ns, "", "all") == ns
  {
    forall n | n in ns
      ensures NotificationShown(n, "", "all")
    {
      ContainsEmpty(Lower(n.recipient));
    }
    FilterKeepsAll(ns, n => NotificationShown(n, "", "all"));
  }

  /** Filtering by one status keeps only notifications with that status. */
  lemma StatusFilterExact(ns: seq<Notification>, term: string, status: string)
    requires status != "all"
    ensures forall n :: n in FilterNotifications(ns, term, status) ==> n.status == status
  {
  }

  /** The badge variant of a delivery status. */
  function StatusColor(status: string): (v: Variant)
    ensures status !in ["sent", "delivered", "pending", "failed"] ==> v == Outline
    ensures v == Destructive <==> status == "failed"
    ensures v == Default <==> status == "sent"
    ensures v == Secondary <==> status == "pending"
  {
    match status
    case "sent" => Default
    case "delivered" => Outline
    case "pending" => Secondary
    case "failed" => Destructive
    case _ => Outline
  }

  /** Each variant other than Outline belongs to exactly one status. */
  lemma StatusColorIff(status: string)
    ensures StatusColor(status) == Default <==> status == "sent"
    ensures StatusColor(status) == Secondary <==> status == "pending"
    ensures StatusColor(status) == Destructive <==> status == "failed"
    ensures StatusColor(status) == Outline <==> status !in ["sent", "pending", "failed"]
  {
  }
}

=== FILE: patient_profiles.dfy ===
/**
 * The patient list of the profiles screen: a seven-way filter, a keyed sort,
 * the multi-select filter toggle, filter reset and the active-filter badge
 * count. Calendar dates are millisecond timestamps and "today" is the `now`
 * parameter.
 */
module PatientProfiles {
  import opened Common
  import opened Sorting

  /** Default bounds of the age slider. */
  const DefaultMinAge: int := 18
  const DefaultMaxAge: int := 45

  datatype Patient = Patient(
    id: string,
    name: string,
    age: int,
    phone: string,
    email: string,
    pregnancyWeeks: int,
    trimester: string,
    dueDate: int,
    status: string,
    lastVisit: int,
    riskLevel: string,
    visitCount: int
  )

  datatype FilterState = FilterState(
    trimester: string,
    visitCountOperator: string,
    visitCountValue: int,
    riskLevel: seq<string>,
    status: seq<string>,
    ageRange: (int, int),
    dueWithinDays: Option<int>
  )

  /** The keys offered by the sort selector. */
  datatype SortField = Name | Age | PregnancyWeeks | VisitCount | LastVisit | DueDate

  /** The multi-select (array-valued) filter fields. */
  datatype ListField = RiskLevels | Statuses

  /** The filter state on first render and after "Clear all". */
  const InitialFilters: FilterState :=
    FilterState("", "gte", 0, [], [], (DefaultMinAge, DefaultMaxAge), None)

  // ---------------------------------------------------------------------------
  // Date arithmetic
  // ---------------------------------------------------------------------------

  /** `Math.ceil(a / b)` for a positive divisor. */
  function CeilDiv(a: int, b: int): (q: int)
    requires b > 0
    ensures b * (q - 1) < a <= b * q
  {
    -((-a) / b)
  }

  /** Whole days from `now` until `due`, rounded up. */
  function DaysUntil(due: int, now: int): int {
    CeilDiv(due - now, MsPerDay)
  }

  /** A positive day count means the date is still ahead. */
  lemma {:induction false} DaysUntilPositive(due: int, now: int)
    ensures DaysUntil(due, now) > 0 <==> due > now
  {
    var d := DaysUntil(due, now);
    if d > 0 {
      assert MsPerDay * (d - 1) >= 0;
    } else {
      assert MsPerDay * d <= 0;
    }
  }

  /** At most `n` days ahead, counting a started day as a whole one. */
  lemma {:induction false} DaysUntilAtMost(due: int, now: int, n: int)
    ensures DaysUntil(due, now) <= n <==> due - now <= n * MsPerDay
  {
    var d := DaysUntil(due, now);
    if d <= n {
      assert MsPerDay * d <= MsPerDay * n;
    } else {
      assert MsPerDay * (d - 1) >= MsPerDay * n;
    }
  }

  /**
   * Weeks left until the due date, rounded up and never negative: zero once
   * the date has passed, otherwise the smallest week count covering the gap.
   */
  function WeeksRemaining(dueDate: int, now: int): (w: nat)
    ensures w > 0 <==> dueDate > now
    ensures w > 0 ==> MsPerWeek * (w - 1) < dueDate - now <= MsPerWeek * w
  {
    var d := CeilDiv(dueDate - now, MsPerWeek);
    if d > 0 then
      d
    else
      assert MsPerWeek * d <= 0;
      0
  }

  // ---------------------------------------------------------------------------
  // The seven sub-predicates
  // ---------------------------------------------------------------------------

  predicate MatchesSearch(p: Patient, term: string) {
    || Contains(Lower(p.name), Lower(term))
    || Contains(Lower(p.email), Lower(term))
    || Contains(p.phone, term)
  }

  predicate MatchesTrimester(p: Patient, trimester: string) {
    trimester == "" || trimester == "All" || p.trimester == trimester
  }

  predicate MatchesVisitCount(p: Patient, op: string, value: int) {
    if value <= 0 then true
    else if op == "lt" then p.visitCount < value
    else if op == "eq" then p.visitCount == value
    else if op == "gte" then p.visitCount >= value
    else if op == "gt" then p.visitCount > value
    else true
  }

  predicate MatchesRiskLevel(p: Patient, levels: seq<string>) {
    |levels| == 0 || p.riskLevel in levels
  }

  predicate MatchesStatus(p: Patient, statuses: seq<string>) {
    |statuses| == 0 || p.status in statuses
  }

  predicate MatchesAge(p: Patient, range: (int, int)) {
    range.0 <= p.age && p.age <= range.1
  }

  predicate MatchesDueDate(p: Patient, within: Option<int>, now: int) {
    within.Some? && p.status == "Active" ==>
      var d := DaysUntil(p.dueDate, now);
      d <= within.value && d > 0
  }

  /** The conjunction of all seven filters. */
  predicate Matches(p: Patient, term: string, f: FilterState, now: int) {
    && MatchesSearch(p, term)
    && MatchesTrimester(p, f.trimester)
    && MatchesVisitCount(p, f.visitCountOperator, f.visitCountValue)
    && MatchesRiskLevel(p, f.riskLevel)
    && MatchesStatus(p, f.status)
    && MatchesAge(p, f.ageRange)
    && MatchesDueDate(p, f.dueWithinDays, now)
  }

  /** The comparison key of a sort field; names compare case-insensitively. */
  function SortKey(field: SortField): Patient -> Key {
    match field
    case Name => (p: Patient) => Text(Lower(p.name))
    case Age => (p: Patient) => Num(p.age)
    case PregnancyWeeks => (p: Patient) => Num(p.pregnancyWeeks)
    case VisitCount => (p: Patient) => Num(p.visitCount)
    case LastVisit => (p: Patient) => Num(p.lastVisit)
    case DueDate => (p: Patient) => Num(p.dueDate)
  }

  /**
   * The displayed list: exactly the patients passing every filter, each as
   * often as in the input, ordered by the chosen key (ascending only for
   * "asc", descending for any other order).
   */
  function FilteredPatients(patients: seq<Patient>, term: string, f: FilterState,
                            sortBy: SortField, sortOrder: string, now: int): (r: seq<Patient>)
    ensures forall p :: multiset(r)[p] == if Matches(p, term, f, now) then multiset(patients)[p] else 0
    ensures forall p :: p in r <==> p in patients && Matches(p, term, f, now)
    ensures SortedBy(r, SortKey(sortBy), sortOrder != "asc")
  {
    var kept := Filter(patients, p => Matches(p, term, f, now));
    var r := SortBy(kept, SortKey(sortBy), sortOrder != "asc");
    assert forall p :: p in r <==> p in multiset(r);
    assert forall p :: p in kept <==> p in multiset(kept);
    r
  }

  /** Ascending order by name is alphabetical after lower-casing. */
  lemma SortedByNameAscending(r: seq<Patient>, i: int, j: int)
    requires SortedBy(r, SortKey(Name), false)
    requires 0 <= i < j < |r|
    ensures TextLe(Lower(r[i].name), Lower(r[j].name))
  {
  }

  /** Descending order by a numeric key is non-increasing. */
  lemma SortedByAgeDescending(r: seq<Patient>, i: int, j: int)
    requires SortedBy(r, SortKey(Age), true)
    requires 0 <= i < j < |r|
    ensures r[j].age <= r[i].age
  {
  }

  // ---------------------------------------------------------------------------
  // Properties of individual filters
  // ---------------------------------------------------------------------------

  /**
   * A non-positive visit threshold passes everyone; otherwise the operator is
   * applied, and an operator outside lt/eq/gte/gt passes everyone.
   */
  lemma VisitCountRule(p: Patient, op: string, value: int)
    ensures value <= 0 ==> MatchesVisitCount(p, op, value)
    ensures value > 0 && op == "lt" ==> (MatchesVisitCount(p, op, value) <==> p.visitCount < value)
    ensures value > 0 && op == "eq" ==> (MatchesVisitCount(p, op, value) <==> p.visitCount == value)
    ensures value > 0 && op == "gte" ==> (MatchesVisitCount(p, op, value) <==> p.visitCount >= value)
    ensures value > 0 && op == "gt" ==> (MatchesVisitCount(p, op, value) <==> p.visitCount > value)
    ensures op !in ["lt", "eq", "gte", "gt"] ==> MatchesVisitCount(p, op, value)
  {
  }

  /** "" and "All" trimesters and empty risk/status lists restrict nothing. */
  lemma NeutralSelections(p: Patient, f: FilterState)
    requires f.trimester == "" || f.trimester == "All"
    requires f.riskLevel == [] && f.status == []
    ensures MatchesTrimester(p, f.trimester)
    ensures MatchesRiskLevel(p, f.riskLevel)
    ensures MatchesStatus(p, f.status)
  {
  }

  /**
   * The due-date filter leaves non-active patients alone and keeps an active
   * one exactly when the due date is after now and no more than the chosen
   * number of days away.
   */
  lemma DueWithinWindow(p: Patient, n: int, now: int)
    ensures p.status != "Active" ==> MatchesDueDate(p, Some(n), now)
    ensures p.status == "Active" ==>
      (MatchesDueDate(p, Some(n), now) <==> now < p.dueDate && p.dueDate - now <= n * MsPerDay)
  {
    DaysUntilPositive(p.dueDate, now);
    DaysUntilAtMost(p.dueDate, now, n);
  }

  // ---------------------------------------------------------------------------
  // Filter state updates
  // ---------------------------------------------------------------------------

  /** `handleMultiSelectFilter`: toggles one value of one list field. */
  function ToggleFilter(f: FilterState, field: ListField, value: string): (r: FilterState)
    ensures field == RiskLevels ==> r.status == f.status && (value in r.riskLevel <==> value !in f.riskLevel)
    ensures field == Statuses ==> r.riskLevel == f.riskLevel && (value in r.status <==> value !in f.status)
    ensures field == RiskLevels ==> forall x :: x != value ==> multiset(r.riskLevel)[x] == multiset(f.riskLevel)[x]
    ensures field == RiskLevels && value !in f.riskLevel ==> r.riskLevel == f.riskLevel + [value]
    ensures field == RiskLevels && value in f.riskLevel ==> IsSubsequence(r.riskLevel, f.riskLevel)
    ensures field == Statuses ==> forall x :: x != value ==> multiset(r.status)[x] == multiset(f.status)[x]
    ensures field == Statuses && value !in f.status ==> r.status == f.status + [value]
    ensures field == Statuses && value in f.status ==> IsSubsequence(r.status, f.status)
    ensures r.trimester == f.trimester && r.visitCountOperator == f.visitCountOperator
    ensures r.visitCountValue == f.visitCountValue && r.ageRange == f.ageRange
    ensures r.dueWithinDays == f.dueWithinDays
  {
    match field
    case RiskLevels => f.(riskLevel := Toggle(f.riskLevel, value))
    case Statuses => f.(status := Toggle(f.status, value))
  }

  /** Ticking and unticking an unselected value restores the filter state. */
  lemma ToggleFilterTwice(f: FilterState, field: ListField, value: string)
    requires field == RiskLevels ==> value !in f.riskLevel
    requires field == Statuses ==> value !in f.status
    ensures ToggleFilter(ToggleFilter(f, field, value), field, value) == f
  {
    match field
    case RiskLevels => ToggleTwiceRestores(f.riskLevel, value);
    case Statuses => ToggleTwiceRestores(f.status, value);
  }

  /** Number of filters shown as active badges, the search box included. */
  function ActiveFilterCount(f: FilterState, term: string): (n: nat)
    ensures n <= 7
    ensures n == 0 <==>
      && (f.trimester == "" || f.trimester == "All")
      && f.visitCountValue <= 0
      && f.riskLevel == [] && f.status == []
      && f.ageRange == (DefaultMinAge, DefaultMaxAge)
      && f.dueWithinDays == None
      && term == ""
  {
    (if f.trimester != "" && f.trimester != "All" then 1 else 0)
    + (if f.visitCountValue > 0 then 1 else 0)
    + (if |f.riskLevel| > 0 then 1 else 0)
    + (if |f.status| > 0 then 1 else 0)
    + (if f.ageRange.0 != DefaultMinAge || f.ageRange.1 != DefaultMaxAge then 1 else 0)
    + (if f.dueWithinDays.Some? then 1 else 0)
    + (if term != "" then 1 else 0)
  }

  /** `clearAllFilters`: the initial filters and an empty search box. */
  function ClearAllFilters(): (r: (FilterState, string))
    ensures ActiveFilterCount(r.0, r.1) == 0
    ensures r.0.visitCountOperator == "gte" && r.0.ageRange == (DefaultMinAge, DefaultMaxAge)
  {
    (InitialFilters, "")
  }

  /**
   * With no active filter, the only restriction left is the default age
   * range: the list holds exactly the patients aged 18 to 45.
   */
  lemma NoActiveFilters(p: Patient, f: FilterState, term: string, now: int)
    requires ActiveFilterCount(f, term) == 0
    ensures Matches(p, term, f, now) <==> DefaultMinAge <= p.age <= DefaultMaxAge
  {
    ContainsEmpty(Lower(p.name));
  }

  /** After "Clear all", every patient of default age is listed. */
  lemma ClearedListKeepsDefaultAges(patients: seq<Patient>, sortBy: SortField, sortOrder: string, now: int)
    requires forall p :: p in patients ==> DefaultMinAge <= p.age <= DefaultMaxAge
    ensures var (f, term) := ClearAllFilters();
      multiset(FilteredPatients(patients, term, f, sortBy, sortOrder, now)) == multiset(patients)
  {
    var (f, term) := ClearAllFilters();
    forall p | p in patients
      ensures Matches(p, term, f, now)
    {
      NoActiveFilters(p, f, term, now);
    }
    FilterKeepsAll(patients, p => Matches(p, term, f, now));
  }
}

=== FILE: patients_page.dfy ===
/**
 * The stand-alone patients page: a name search over a local list and the
 * add-patient form, which appends a record whose id is the next position.
 * `Number(...)` on the form's text fields is the `toNumber` parameter.
 */
module PatientsPage {
  import opened Common

  datatype Patient = Patient(
    id: string,
    name: string,
    age: int,
    phone: string,
    email: string,
    address: string,
    emergencyContact: string,
    riskLevel: string,
    status: string,
    weeks: int,
    dueDate: string
  )

  /** The add-patient form: every input as typed text. */
  datatype PatientForm = PatientForm(
    name: string,
    age: string,
    phone: string,
    email: string,
    address: string,
    emergencyContact: string,
    riskLevel: string,
    status: string,
    weeks: string,
    dueDate: string
  )

  datatype PageState = PageState(
    patients: seq<Patient>,
    search: string,
    showAdd: bool,
    form: PatientForm
  )

  /** The blank form: low risk, active, every other input empty. */
  const EmptyForm: PatientForm := PatientForm("", "", "", "", "", "", "Low", "Active", "", "")

  /** The three patients the page starts with. */
  const DummyPatients: seq<Patient> := [
    Patient("1", "Marie Kamara", 32, "1234567890", "marie.kamara@example.com", "123 Main St",
      "Jane Doe", "Medium", "Active", 36, "2024-02-15"),
    Patient("2", "Emmanuella Turay", 29, "2345678901", "emmanuella.turay@example.com", "456 Elm St",
      "John Doe", "Low", "Active", 24, "2024-03-20"),
    Patient("3", "Sarah Conteh", 24, "3456789012", "sarah.conteh@example.com", "789 Oak St",
      "Mary Smith", "Low", "Delivered", 0, "2024-04-10")
  ]

  const InitialState: PageState := PageState(DummyPatients, "", false, EmptyForm)

  predicate NameMatches(p: Patient, search: string) {
    Contains(Lower(p.name), Lower(search))
  }

  /** `filtered`: the patients whose name contains the search, ignoring case, in order. */
  function FilteredByName(patients: seq<Patient>, search: string): (r: seq<Patient>)
    ensures IsSubsequence(r, patients)
    ensures forall p :: p in r <==> p in patients && NameMatches(p, search)
    ensures forall p :: multiset(r)[p] == if NameMatches(p, search) then multiset(patients)[p] else 0
  {
    Filter(patients, (p: Patient) => NameMatches(p, search))
  }

  /** An empty search lists every patient, in order. */
  lemma EmptySearchKeepsAll(patients: seq<Patient>)
    ensures FilteredByName(patients, "") == patients
  {
    forall p | p in patients
      ensures NameMatches(p, "")
    {
      ContainsEmpty(Lower(p.name));
    }
    FilterKeepsAll(patients, (p: Patient) => NameMatches(p, ""));
  }

  /** The record the form produces at position `n` of the list. */
  function FromForm(form: PatientForm, n: nat, toNumber: string -> int): (p: Patient)
    ensures p.id == NatToString(n + 1)
    ensures p.name == form.name && p.phone == form.phone && p.email == form.email
    ensures p.address == form.address && p.emergencyContact == form.emergencyContact
    ensures p.riskLevel == form.riskLevel && p.status == form.status && p.dueDate == form.dueDate
    ensures p.age == toNumber(form.age) && p.weeks == toNumber(form.weeks)
  {
    Patient(NatToString(n + 1), form.name, toNumber(form.age), form.phone, form.email,
      form.address, form.emergencyContact, form.riskLevel, form.status,
      toNumber(form.weeks), form.dueDate)
  }

  /**
   * `handleAddPatient`: appends one patient built from the form, closes the
   * dialog and blanks the form; the search and the earlier patients stay.
   */
  function AddPatient(st: PageState, toNumber: string -> int): (r: PageState)
    ensures |r.patients| == |st.patients| + 1
    ensures r.patients[..|st.patients|] == st.patients
    ensures r.patients[|st.patients|] == FromForm(st.form, |st.patients|, toNumber)
    ensures DecimalValue(r.patients[|st.patients|].id) == |r.patients|
    ensures !r.showAdd && r.form == EmptyForm
    ensures r.search == st.search
  {
    var n := |st.patients|;
    NatToStringRoundTrip(n + 1);
    var ps := st.patients + [FromForm(st.form, n, toNumber)];
    assert ps[..n] == st.patients;
    PageState(ps, st.search, false, EmptyForm)
  }

  /** The ids are "1", "2", … in list order. */
  predicate SequentialIds(patients: seq<Patient>) {
    forall i :: 0 <= i < |patients| ==> patients[i].id == NatToString(i + 1)
  }

  /** Sequential ids are pairwise different. */
  lemma SequentialIdsDistinct(patients: seq<Patient>)
    requires SequentialIds(patients)
    ensures forall i, j :: 0 <= i < j < |patients| ==> patients[i].id != patients[j].id
  {
    forall i, j | 0 <= i < j < |patients|
      ensures patients[i].id != patients[j].id
    {
      NatToStringInjective(i + 1, j + 1);
    }
  }

  /** Over a list with sequential ids, the id given to a new patient is not taken. */
  lemma NewIdFresh(patients: seq<Patient>)
    requires SequentialIds(patients)
    ensures forall p :: p in patients ==> p.id != NatToString(|patients| + 1)
  {
    forall p | p in patients
      ensures p.id != NatToString(|patients| + 1)
    {
      var i :| 0 <= i < |patients| && patients[i] == p;
      NatToStringInjective(i + 1, |patients| + 1);
    }
  }

  /** Adding a patient keeps the ids sequential. */
  lemma AddKeepsSequentialIds(st: PageState, toNumber: string -> int)
    requires SequentialIds(st.patients)
    ensures SequentialIds(AddPatient(st, toNumber).patients)
  {
    var r := AddPatient(st, toNumber);
    forall i | 0 <= i < |r.patients|
      ensures r.patients[i].id == NatToString(i + 1)
    {
      if i < |st.patients| {
        assert r.patients[i] == r.patients[..|st.patients|][i];
      }
    }
  }

  /** The page starts with sequential ids, so every id it ever hands out is fresh. */
  lemma InitialIdsSequential()
    ensures SequentialIds(InitialState.patients)
  {
    assert NatToString(1) == "1" && NatToString(2) == "2" && NatToString(3) == "3";
  }
}

=== FILE: report.dfy ===
/**
 * The whistleblower report list: default-filling of fetched documents, the
 * field-selectable case-insensitive search, and the two counters shown above
 * the list.
 */
module Report {
  import opened Common

  /** A stored timestamp, as seconds since the epoch. */
  datatype Timestamp = Timestamp(seconds: int)

  /** A report document as stored: every field may be missing. */
  datatype RawReport = RawReport(
    id: string,
    clientName: Option<string>,
    clientNumber: Option<string>,
    createdAt: Option<Timestamp>,
    description: Option<string>,
    facilityName: Option<string>,
    isAnonymous: Option<bool>,
    phoneNumber: Option<string>,
    reportType: Option<string>
  )

  datatype Report = Report(
    id: string,
    clientName: string,
    clientNumber: string,
    createdAt: Option<Timestamp>,
    description: string,
    facilityName: string,
    isAnonymous: bool,
    phoneNumber: string,
    reportType: string
  )

  /** The keys of a report. */
  datatype Field =
    | Id | ClientName | ClientNumber | CreatedAt | Description
    | FacilityName | IsAnonymous | PhoneNumber | ReportType

  /** The search scope: every searchable field, or one field. */
  datatype SearchField = AllFields | Only(field: Field)

  datatype ReportCounts = ReportCounts(total: nat, anonymous: nat, uniqueReporters: nat)

  /** `value || "-"`: a missing or empty string becomes a dash. */
  function OrDash(value: Option<string>): (r: string)
    ensures r != ""
    ensures value.Some? && value.value != "" ==> r == value.value
    ensures value.None? || value.value == "" ==> r == "-"
  {
    if value.Some? && value.value != "" then value.value else "-"
  }

  /** One fetched document with its defaults filled in. */
  function FillReport(raw: RawReport): (r: Report)
    ensures r.id == raw.id
    ensures r.clientName != "" && r.clientNumber != "" && r.description != ""
    ensures r.facilityName != "" && r.phoneNumber != "" && r.reportType != ""
    ensures r.clientName == OrDash(raw.clientName) && r.clientNumber == OrDash(raw.clientNumber)
    ensures r.description == OrDash(raw.description) && r.facilityName == OrDash(raw.facilityName)
    ensures r.phoneNumber == OrDash(raw.phoneNumber) && r.reportType == OrDash(raw.reportType)
    ensures r.createdAt == raw.createdAt
    ensures r.isAnonymous <==> raw.isAnonymous != Some(false)
  {
    Report(
      raw.id,
      OrDash(raw.clientName),
      OrDash(raw.clientNumber),
      raw.createdAt,
      OrDash(raw.description),
      OrDash(raw.facilityName),
      raw.isAnonymous.GetOr(true),
      OrDash(raw.phoneNumber),
      OrDash(raw.reportType))
  }

  /** `fetchReports`: every document, in snapshot order, with defaults. */
  function FetchReports(raws: seq<RawReport>): (rs: seq<Report>)
    ensures |rs| == |raws|
    ensures forall i :: 0 <= i < |raws| ==> rs[i] == FillReport(raws[i])
  {
    Map(raws, FillReport)
  }

  /** The string value of a field, when the field holds a string. */
  function TextOf(r: Report, f: Field): Option<string> {
    match f
    case Id => Some(r.id)
    case ClientName => Some(r.clientName)
    case ClientNumber => Some(r.clientNumber)
    case Description => Some(r.description)
    case FacilityName => Some(r.facilityName)
    case PhoneNumber => Some(r.phoneNumber)
    case ReportType => Some(r.reportType)
    case CreatedAt => None
    case IsAnonymous => None
  }

  /**
   * `checkField`: the timestamp is matched through its locale text (the
   * `localeText` parameter), a string field directly, and a missing timestamp
   * or the boolean flag never.
   */
  predicate CheckField(r: Report, f: Field, lower: string, localeText: Timestamp -> string)
    ensures CheckField(r, f, lower, localeText) ==> f != IsAnonymous
    ensures f == CreatedAt && r.createdAt.None? ==> !CheckField(r, f, lower, localeText)
    ensures f == CreatedAt && r.createdAt.Some? ==>
      (CheckField(r, f, lower, localeText) <==> Contains(Lower(localeText(r.createdAt.value)), lower))
  {
    if f == CreatedAt then
      r.createdAt.Some? && Contains(Lower(localeText(r.createdAt.value)), lower)
    else
      TextOf(r, f).Some? && Contains(Lower(TextOf(r, f).value), lower)
  }

  /** The six fields searched in "all" mode; the phone number and id are not among them. */
  const AllModeFields: seq<Field> := [ClientName, ClientNumber, FacilityName, ReportType, Description, CreatedAt]

  predicate Keep(r: Report, field: SearchField, lower: string, localeText: Timestamp -> string) {
    match field
    case AllFields => exists f :: f in AllModeFields && CheckField(r, f, lower, localeText)
    case Only(f) => CheckField(r, f, lower, localeText)
  }

  /**
   * `filteredReports`: a blank search returns the list itself; otherwise the
   * reports matching the lower-cased (untrimmed) term, in order.
   */
  function FilterReports(reports: seq<Report>, term: string, field: SearchField,
                         localeText: Timestamp -> string): (r: seq<Report>)
    ensures IsBlank(term) ==> r == reports
    ensures !IsBlank(term) ==> IsSubsequence(r, reports)
    ensures !IsBlank(term) ==> forall x :: x in r <==> x in reports && Keep(x, field, Lower(term), localeText)
    ensures !IsBlank(term) ==>
      forall x :: multiset(r)[x] == if Keep(x, field, Lower(term), localeText) then multiset(reports)[x] else 0
    ensures |r| <= |reports|
  {
    var lower := Lower(term);
    if Trim(term) == "" then reports
    else Filter(reports, x => Keep(x, field, lower, localeText))
  }

  /** With one string field selected, a report is kept iff that field contains the term. */
  lemma SingleFieldSearch(reports: seq<Report>, term: string, f: Field,
                          localeText: Timestamp -> string, x: Report)
    requires !IsBlank(term) && f != CreatedAt && f != IsAnonymous
    ensures x in FilterReports(reports, term, Only(f), localeText) <==>
      x in reports && Contains(Lower(TextOf(x, f).value), Lower(term))
  {
  }

  /** In "all" mode the phone number is never searched. */
  lemma PhoneNumberNotSearched(x: Report, phone: string, term: string, localeText: Timestamp -> string)
    ensures Keep(x, AllFields, Lower(term), localeText) <==>
      Keep(x.(phoneNumber := phone), AllFields, Lower(term), localeText)
  {
    var y := x.(phoneNumber := phone);
    assert forall f :: f in AllModeFields ==> (CheckField(x, f, Lower(term), localeText) <==> CheckField(y, f, Lower(term), localeText));
  }

  /** A report matching the term in its phone number alone is not found in "all" mode. */
  lemma PhoneOnlyMatchIsDropped(x: Report, term: string, localeText: Timestamp -> string)
    requires !IsBlank(term)
    requires forall f :: f in AllModeFields ==> !CheckField(x, f, Lower(term), localeText)
    requires CheckField(x, PhoneNumber, Lower(term), localeText)
    ensures x !in FilterReports([x], term, AllFields, localeText)
  {
  }

  /** The counter cards: total, anonymous, and distinct client numbers. */
  function Counts(filtered: seq<Report>): (c: ReportCounts)
    ensures c.total == |filtered|
    ensures c.anonymous <= c.total
    ensures c.uniqueReporters <= c.total
    ensures c.uniqueReporters == 0 <==> c.total == 0
  {
    var numbers := Map(filtered, (r: Report) => r.clientNumber);
    var unique := Dedup(numbers);
    assert |filtered| > 0 ==> numbers[0] in unique;
    ReportCounts(|filtered|, Count(filtered, (r: Report) => r.isAnonymous), |unique|)
  }
}

=== FILE: sorting.dfy ===
/**
 * Keyed sorting as `Array.prototype.sort` does it with a three-way
 * comparator built from `<` and `>`: numbers and timestamps compare
 * numerically, strings compare character by character, and the result may
 * be ascending or descending. A Dafny `char` is a Unicode code point, so the
 * string order here is code-point order; JavaScript compares UTF-16 code
 * units, which differs only for characters outside the Basic Multilingual Plane.
 */
module Sorting {

  /** A sort key: a number (ages, counts, millisecond timestamps) or a string. */
  datatype Key = Num(n: int) | Text(s: string)

  /** `a <= b` on strings: lexicographic by character, a proper prefix first. */
  predicate TextLe(a: string, b: string)
    decreases |a|
  {
    |a| == 0 || (|b| > 0 && (a[0] < b[0] || (a[0] == b[0] && TextLe(a[1..], b[1..]))))
  }

  lemma {:induction false} TextLeTotal(a: string, b: string)
    ensures TextLe(a, b) || TextLe(b, a)
    decreases |a|
  {
    if |a| > 0 && |b| > 0 && a[0] == b[0] {
      TextLeTotal(a[1..], b[1..]);
    }
  }

  lemma {:induction false} TextLeTransitive(a: string, b: string, c: string)
    requires TextLe(a, b) && TextLe(b, c)
    ensures TextLe(a, c)
    decreases |a|
  {
    if |a| > 0 && a[0] == b[0] && b[0] == c[0] {
      TextLeTransitive(a[1..], b[1..], c[1..]);
    }
  }

  /**
   * The order the comparator induces. Keys of one sort are all of one kind;
   * numbers are put before strings only so that the order is total.
   */
  predicate KeyLe(a: Key, b: Key) {
    match (a, b)
    case (Num(x), Num(y)) => x <= y
    case (Text(x), Text(y)) => TextLe(x, y)
    case (Num(_), Text(_)) => true
    case (Text(_), Num(_)) => false
  }

  /** `a` may precede `b` in a list sorted ascending (or descending if `desc`). */
  predicate InOrder(a: Key, b: Key, desc: bool) {
    if desc then KeyLe(b, a) else KeyLe(a, b)
  }

  lemma InOrderTotal(a: Key, b: Key, desc: bool)
    ensures InOrder(a, b, desc) || InOrder(b, a, desc)
  {
    if a.Text? && b.Text? {
      TextLeTotal(a.s, b.s);
    }
  }

  lemma InOrderTransitive(a: Key, b: Key, c: Key, desc: bool)
    requires InOrder(a, b, desc) && InOrder(b, c, desc)
    ensures InOrder(a, c, desc)
  {
    if a.Text? && b.Text? && c.Text? {
      if desc {
        TextLeTransitive(c.s, b.s, a.s);
      } else {
        TextLeTransitive(a.s, b.s, c.s);
      }
    }
  }

  /** Every earlier element may precede every later one. */
  ghost predicate SortedBy<T>(s: seq<T>, key: T -> Key, desc: bool) {
    forall i, j :: 0 <= i < j < |s| ==> InOrder(key(s[i]), key(s[j]), desc)
  }

  /** An element that may precede every element of a sorted list can head it. */
  lemma PrependSorted<T>(h: T, s: seq<T>, key: T -> Key, desc: bool)
    requires SortedBy(s, key, desc)
    requires forall y :: y in s ==> InOrder(key(h), key(y), desc)
    ensures SortedBy([h] + s, key, desc)
  {
    var r := [h] + s;
    forall i, j | 0 <= i < j < |r|
      ensures InOrder(key(r[i]), key(r[j]), desc)
    {
      assert r[j] == s[j - 1];
      if i > 0 {
        assert r[i] == s[i - 1];
      }
    }
  }

  /** Inserts `x` before the first element it may precede. */
  function Insert<T>(x: T, s: seq<T>, key: T -> Key, desc: bool): (r: seq<T>)
    requires SortedBy(s, key, desc)
    ensures multiset(r) == multiset(s) + multiset{x}
    ensures SortedBy(r, key, desc)
    decreases |s|
  {
    if |s| == 0 then [x]
    else if InOrder(key(x), key(s[0]), desc) then
      forall y | y in s
        ensures InOrder(key(x), key(y), desc)
      {
        var j :| 0 <= j < |s| && s[j] == y;
        if j > 0 {
          InOrderTransitive(key(x), key(s[0]), key(s[j]), desc);
        }
      }
      PrependSorted(x, s, key, desc);
      assert s == [s[0]] + s[1..];
      [x] + s
    else
      InOrderTotal(key(x), key(s[0]), desc);
      var rest := Insert(x, s[1..], key, desc);
      assert s == [s[0]] + s[1..];
      forall y | y in rest
        ensures InOrder(key(s[0]), key(y), desc)
      {
        assert y in multiset(rest);
        if y != x {
          var j :| 0 <= j < |s[1..]| && s[1..][j] == y;
          assert s[j + 1] == y;
        }
      }
      PrependSorted(s[0], rest, key, desc);
      [s[0]] + rest
  }

  /**
   * Stable insertion sort: the result is a permutation of `s` in which every
   * element may precede every later one.
   */
  function SortBy<T>(s: seq<T>, key: T -> Key, desc: bool): (r: seq<T>)
    ensures multiset(r) == multiset(s)
    ensures SortedBy(r, key, desc)
    decreases |s|
  {
    if |s| == 0 then []
    else
      assert s == [s[0]] + s[1..];
      Insert(s[0], SortBy(s[1..], key, desc), key, desc)
  }
}
